=== FILE: README.md ===
# Portfolio site core, modelled in Dafny

The portfolio site is a Next.js application: public pages, a contact form that
e-mails its submissions, and a small admin area where a logged-in owner
maintains the list of projects shown on the site. Most of it is view code.
This project models the parts that decide something:

- **Route guard** (`middleware.dfy`). The `middleware` function decides,
  from the request path and whether a session came with it, whether to
  redirect to `/admin/login`, redirect to `/admin`, or let the request
  through.
- **Project API** (`project.dfy`, `project_api.dfy`, `http.dfy`, `json.dfy`).
  - `projectSchema` is the validator and normaliser for new projects.
  - `GET` and `POST /api/admin/projects` are the admin handlers. The store
    is a sequence of records, and a handler returns the response and the
    store after the call.
  - `GET /api/projects` is the public listing. The two listings are two
    sort orders.
- **Admin dashboard codec** (`admin_dashboard.dfy`, `submission.dfy`). These
  are the pure steps of the dashboard's event handlers:
  - the tag text is parsed into a tag list and joined back;
  - an empty link field means `null`, and a `null` link shows as empty;
  - the form is filled from a project and reset after a save;
  - the dashboard chooses between PUT and POST;
  - the local list is updated after a delete.

  `submission.dfy` connects the dashboard's request body to the server's
  schema.
- **Contact pipeline** (`contact.dfy`, `email.dfy`).
  - `contactSchema` and `POST /api/contact` validate a submission and map
    the outcome to a status.
  - `sendContactEmail` builds the message: recipient, reply address,
    subject default, HTML body and newline rewrite. It reports a send call
    that throws as a failure value.
- **Design-token helpers** (`design_system.dfy`). `cssVar`, the `gradient`
  table, and `colorWithOpacity`, which decodes `#rrggbb` with JavaScript's
  `parseInt(…, 16)`.
- **JavaScript string semantics** (`js_string.dfy`). The handlers rely on
  these built-ins: `trim`, `split`, `join`, a global `replace` of one
  character, `replace` of the first occurrence, `substring`, and decimal
  rendering of integers.

The libraries become parameters:

- a session is a boolean;
- zod's `url()` and `email()` checks are predicates `string -> bool`;
- the mail provider is an oracle `EmailMessage -> bool` (false when the
  call throws);
- a store failure is a boolean;
- the new record's id and timestamp are arguments;
- `CONTACT_EMAIL` is an optional string.

A request body is either malformed (`request.json()` throws) or parsed JSON.
A schema failure is modelled as one issue per failing schema key, named by
the key, or a single root issue when the body is not an object.

Some behaviour of the code is easy to expect otherwise:

- The public listing orders by `featured`, then `createdAt`, both
  descending; the admin listing by `createdAt` descending alone. Neither
  has a tie-break, so records equal on the sort key have no defined order
  (Projects.PublicOrderMeaning, Projects.AdminOrderMeaning).
- `POST /api/admin/projects` stores the tags it receives as they are. Only
  the dashboard trims tags and drops empty ones, before it sends them
  (ProjectApi.CreateStoresInput, AdminDashboard.ParseTags).
- The contact route answers an unexpected failure with the body
  `Failed to process contact form submission` (Contact.Post).

## Model

| member | source | states |
|---|---|---|
| Middleware.Guarded | src/middleware.ts:8-9 | Every path under `/admin/` other than the login page is guarded. A guarded path starts with `/admin` and is either `/admin` itself or longer than it. |
| Middleware.Decide | src/middleware.ts:4-25 | A path under the `/admin` prefix, other than the login page, redirects to `/admin/login` exactly when there is no session. The login page redirects to `/admin` exactly when there is a session. Every redirect comes from a path under the prefix. A path outside it always passes. |
| Middleware.DecideCases | src/middleware.ts:8-24 | A guarded path with a session passes, and so does the login page without one. `/adminx` is guarded, since the test is a plain prefix. `/admin/projects` without a session goes to login. `/projects` passes either way. |
| Middleware.NoRedirectLoop | src/middleware.ts:8-22 | Following either redirect with the same session state gives a request that passes. |
| Projects.Insert | src/app/api/projects/route.ts:9-14 | Inserting into a sequence ordered by the key keeps it ordered. The result holds the old elements plus the new one, as a multiset. |
| Projects.SortDescending | src/app/api/admin/projects/route.ts:25-27 | The listing is a permutation of the store, ordered descending by the sort key. |
| Projects.PublicOrderMeaning | src/app/api/projects/route.ts:9-14 | Ordering by (featured, createdAt) descending holds exactly when every featured project precedes every other and createdAt does not increase within each group. |
| Projects.AdminOrderMeaning | src/app/api/admin/projects/route.ts:25-27 | Ordering by the admin key holds exactly when createdAt never increases along the list. |
| ProjectApi.ReadProject | src/app/api/admin/projects/route.ts:6-15 | Reads the parsed value back from the body's fields. The text fields, image URL and tags are copied verbatim. `featured` is present iff the key is. Each link is told apart as absent, null or a given string. |
| ProjectApi.ParseProject | src/app/api/admin/projects/route.ts:6-15 | The schema accepts a body exactly when it is an object whose every key meets its rule. Its value is what ReadProject reads. A failure names exactly the failing keys, and a non-object body gets the root issue. |
| ProjectApi.IssuesNameFailingKeys | src/app/api/admin/projects/route.ts:6-15 | A key is named in the issue list iff it fails its rule. |
| ProjectApi.OrNull | src/app/api/admin/projects/route.ts:53-54 | `value \|\| null` gives a link exactly when a non-empty string was given, and that string unchanged. |
| ProjectApi.NewProject | src/app/api/admin/projects/route.ts:50-57 | The created record carries the given id and time and the input's fields. Tags are kept as sent. `featured` is true iff `true` was sent. Links are normalised by OrNull. |
| ProjectApi.AdminList | src/app/api/admin/projects/route.ts:18-37 | No session gives 401 `Unauthorized`, and a store failure gives 500. Otherwise the answer is 200 with every stored project, newest first. |
| ProjectApi.Create | src/app/api/admin/projects/route.ts:40-74 | Outcomes in order of precedence: no session gives 401, a malformed body 500, a schema violation 400 `Invalid input` with issues, and a store failure 500. Only success (201) appends exactly the returned record, with the given id and time; every other outcome leaves the store as it was. |
| ProjectApi.PublicList | src/app/api/projects/route.ts:7-23 | There is no session check. A store failure gives 500 `Failed to fetch projects`. Otherwise the answer is 200 with the bare array: a permutation of the store, featured first, newest first within each group. |
| ProjectApi.CreateStoresInput | src/app/api/admin/projects/route.ts:50-59 | For an accepted body, the record holds the sent text fields, image URL and tags. `featured` is true iff `true` was sent. A link is null iff it was absent, null or empty, and otherwise is the sent string. |
| ProjectApi.RejectionNamesFailingKeys | src/app/api/admin/projects/route.ts:61-66 | A rejected object body gets a 400 whose details name each key that breaks its rule and no other, so a bad `imageUrl` is reported under `imageUrl`. |
| ProjectApi.CreatedIsListed | src/app/api/admin/projects/route.ts:18-59 | A project created by POST appears in the next admin listing, which holds one project more than before. |
| ProjectApi.CreateKeepsIdsUnique | src/app/api/admin/projects/route.ts:50-57 | Creating a record with an id not yet in the store keeps the ids unique. |
| AdminDashboard.DropEmpty | src/app/admin/page.tsx:102 | Every string `filter(Boolean)` keeps is non-empty and comes from the input. Each non-empty string is kept exactly as often as it occurs in the input, and the empty string not at all. |
| AdminDashboard.DropEmptyAppend | src/app/admin/page.tsx:102 | The filter works piecewise over concatenation, so the kept strings stay in input order. |
| AdminDashboard.ParseTags | src/app/admin/page.tsx:102 | Every parsed tag is non-empty, trimmed and comma-free. |
| AdminDashboard.ParseTagsAppend | src/app/admin/page.tsx:102 | For the text on either side of a comma, the tags of the left part come first, then those of the right part. |
| AdminDashboard.ParseTagsSegment | src/app/admin/page.tsx:102 | Text without a comma gives its trimmed text as the only tag, or no tag when that is empty. With ParseTagsAppend this fixes the tags of every text. |
| AdminDashboard.ParseTagsRepeated | src/app/admin/page.tsx:102 | A well-formed tag written twice, `t, t`, gives the tag twice. |
| AdminDashboard.ParseTagsSpaceBeforeComma | src/app/admin/page.tsx:102 | White space before a comma is trimmed: `a ,b` gives `a` and `b` for well-formed `a` and `b`. |
| AdminDashboard.ParseTagsLeadingSpace | src/app/admin/page.tsx:102 | A space in front of the text changes no tag. |
| AdminDashboard.TagText | src/app/admin/page.tsx:91 | The tag text of no tags is empty. Otherwise it starts with the first tag and is as long as the tags plus two characters, `, `, between each pair of neighbours. |
| AdminDashboard.TagsRoundTrip | src/app/admin/page.tsx:91-102 | A list of non-empty, trimmed, comma-free tags, joined with `, `, parses back to the same list. |
| AdminDashboard.ParseTagsIdempotent | src/app/admin/page.tsx:91-102 | Joining the parsed tags and parsing again gives the same tags. |
| AdminDashboard.UrlOrNull | src/app/admin/page.tsx:103-104 | An empty link field gives null. Any other text gives itself. |
| AdminDashboard.UrlOrEmpty | src/app/admin/page.tsx:89-90 | A null or empty stored link shows as empty. Any other link shows as itself. |
| AdminDashboard.UrlMappingRoundTrip | src/app/admin/page.tsx:89-104 | The two mappings undo each other: on every field text, and on every stored link that is not the empty string. |
| AdminDashboard.ToProjectData | src/app/admin/page.tsx:100-105 | The request data copies the text fields and `featured`, parses the tags, and maps empty links to null. |
| AdminDashboard.FormOf | src/app/admin/page.tsx:82-95 | The edit form shows the project's fields, its tags joined with `, `, and its links with null shown as empty. |
| AdminDashboard.EditThenSaveUnchanged | src/app/admin/page.tsx:82-105 | A project with well-formed tags and no empty-string links, opened for editing and saved unchanged, sends its own fields back. |
| AdminDashboard.SaveRequestFor | src/app/admin/page.tsx:108-118 | The request is PUT iff a project is being edited. PUT goes to `/api/admin/projects/<id>` and POST to `/api/admin/projects`. The body is the form's data. |
| AdminDashboard.PutUrlNamesProject | src/app/admin/page.tsx:108-110 | The id can be read back from the PUT URL after the collection prefix. |
| AdminDashboard.Edit | src/app/admin/page.tsx:82-95 | Editing opens the form on that project, filled by FormOf, and leaves the list alone. |
| AdminDashboard.AfterSubmit | src/app/admin/page.tsx:120-137 | After a successful save, the form is the initial empty form, closed and editing nothing, and the list is the refetched one if the refetch succeeded. A refused or failed save changes nothing. |
| AdminDashboard.WithoutId | src/app/admin/page.tsx:74 | The filtered list is no longer than the original and holds no project with that id. |
| AdminDashboard.WithoutIdCounts | src/app/admin/page.tsx:74 | Every project with that id is gone. Every other project is kept as often as it occurred. |
| AdminDashboard.WithoutIdAppend | src/app/admin/page.tsx:74 | The filter works piecewise over concatenation, so the kept projects stay in order. |
| AdminDashboard.WithoutListedId | src/app/admin/page.tsx:73-74 | With unique ids, deleting a listed project removes exactly its entry and keeps the rest in order. |
| AdminDashboard.AfterDelete | src/app/admin/page.tsx:65-80 | Only a confirmed delete that the server answered ok drops the projects with that id. Anything else leaves the dashboard unchanged. The new list holds only projects that were there before. |
| Submission.RequestJsonFields | src/app/admin/page.tsx:100-117 | The JSON body sent holds each data field under its schema key, with a missing link as `null`. |
| Submission.AcceptedFields | src/app/api/admin/projects/route.ts:6-15 | The schema accepts the body the dashboard sends iff three text fields are non-empty, the image URL is valid, and each link is null or valid. |
| Submission.SubmittedFormAccepted | src/app/admin/page.tsx:97-117 | The server's schema accepts the body a form produces iff the form is valid. The form is valid when the three text fields are non-empty, the image URL is valid, and each link field is empty or valid. |
| Submission.StoredAsSent | src/app/api/admin/projects/route.ts:48-59 | A valid body that sends no empty-string link is stored with exactly the data sent and answered 201. |
| Submission.FormSubmissionCreates | src/app/admin/page.tsx:97-121 | A valid form, submitted as a new project, is answered 201. The record holds the form's fields, the parsed tags and the null-mapped links, and its tags are well formed. |
| Contact.ReadContact | src/app/api/contact/route.ts:9-14 | Reads the parsed submission from the fields: name 1..100 long, a valid e-mail, message 10..5000 long. The subject is present iff the key is, and at most 200 long. |
| Contact.ParseContact | src/app/api/contact/route.ts:9-21 | A body is accepted exactly when it is an object meeting every rule. A failure names exactly the failing keys, and a non-object body gets the root issue. |
| Contact.IssuesNameFailingContactKeys | src/app/api/contact/route.ts:9-14 | A key is named in the issue list iff it fails its rule. |
| Contact.Post | src/app/api/contact/route.ts:16-61 | A malformed body gives 500 `Failed to process contact form submission`. A schema violation gives 400 `Validation failed` with issues and sends nothing. A valid submission sends exactly one message, the one built by ComposeEmail. The answer is 200 `Message sent successfully!` iff the send call resolves without throwing, and 500 `Failed to send email. Please try again.` iff it fails. |
| Contact.RejectionNamesFailingContactKeys | src/app/api/contact/route.ts:44-53 | A rejected object body gets a 400 whose details name each key that breaks its rule and no other. |
| Contact.SentMessageFields | src/lib/email.ts:27-28 | The reply address is the submitted e-mail. The subject is the submitted one when non-empty, and otherwise `New message from ` followed by the name. |
| Contact.EmptySubjectAccepted | src/app/api/contact/route.ts:12 | Adding an empty subject never changes whether a submission is accepted. |
| Contact.NullSubjectRejected | src/app/api/contact/route.ts:12 | A `null` subject is rejected: the field is optional, not nullable. |
| Email.Recipient | src/lib/email.ts:26 | The recipient is `CONTACT_EMAIL` when set and non-empty, and the placeholder address otherwise. It is never empty. |
| Email.SubjectLine | src/lib/email.ts:28 | The subject is the given one when non-empty, and `New message from <name>` otherwise. |
| Email.MessageHtml | src/lib/email.ts:41 | No `\n` survives the rewrite, and text without a `\n` is unchanged. Other line breaks such as `\r` or U+2028 pass through, as the regular expression matches only `\n`. |
| Email.HtmlShape | src/lib/email.ts:29-50 | The HTML body opens with the fixed heading and the name and address after their labels. It closes with the message, its `\n` rewritten as `<br>`, then the fixed footer. |
| Email.MessageHtmlJoinsLines | src/lib/email.ts:41 | The rewritten message is the submitted lines joined with `<br>`. |
| Email.SubjectParagraph | src/lib/email.ts:36 | The subject paragraph is empty iff the subject is missing or empty. Otherwise it wraps the subject. |
| Email.SubjectParagraphInserted | src/lib/email.ts:29-50 | A non-empty subject inserts exactly its paragraph into the HTML, right after the e-mail line. The rest of the HTML is the same as without a subject. |
| Email.EmptySubjectActsAbsent | src/lib/email.ts:28-36 | An empty subject gives the same message as a missing one. |
| Email.ComposeEmail | src/lib/email.ts:24-51 | The message has the fixed sender, the Recipient, the submitter as reply address, the SubjectLine and the template HTML. |
| Email.SendContactEmail | src/lib/email.ts:20-58 | The result is success iff the send call on the composed message resolves without throwing. A failure is returned as a value, never thrown. |
| DesignSystem.CssVar | src/lib/design-system.ts:233-235 | The result is `var(--`, the token, then `)`. |
| DesignSystem.CssVarInjective | src/lib/design-system.ts:233-235 | Distinct tokens give distinct variables. |
| DesignSystem.Gradient | src/lib/design-system.ts:240-242 | Every entry is a `linear-gradient(180deg, #…` with two six-digit hex stops, the first at `0%` and the second at `100%`. |
| DesignSystem.GradientInjective | src/lib/design-system.ts:53-57 | The three gradient entries differ, so each key names its own gradient. |
| DesignSystem.GradientStopsDecode | src/lib/design-system.ts:53-57 | Both stops of every gradient decode, as `colorWithOpacity` reads colours, to three components that are all numbers in 0..255. |
| DesignSystem.ParseIntHex | src/lib/design-system.ts:250-252 | A number parsed from text of length n has magnitude below 16 to the power n. |
| DesignSystem.HexNumberBelow | src/lib/design-system.ts:250-252 | n hex digits hold a value below 16 to the power n. |
| DesignSystem.ParseIntHexDigits | src/lib/design-system.ts:250-252 | `parseInt(s, 16)` of a non-empty run of hex digits is its base-16 value. |
| DesignSystem.DecodeColor | src/lib/design-system.ts:249-252 | Each of r, g and b is NaN or an integer in -255..255, since at most two characters are read for it. |
| DesignSystem.ParseIntHexNoDigits | src/lib/design-system.ts:250-252 | Text that is empty, or starts with anything other than white space, a sign or a hex digit, parses to NaN. |
| DesignSystem.PairComponent | src/lib/design-system.ts:250-252 | Each two-digit substring of hex digits reads as 16 times its first digit plus its second, which lies in 0..255. |
| DesignSystem.DecodeSixDigits | src/lib/design-system.ts:247-252 | For `#` and six hex digits, r, g and b are the values of the pairs at 0, 2 and 4, each in 0..255. |
| DesignSystem.OnlyFirstHashRemoved | src/lib/design-system.ts:249 | Only the first `#` is removed: `##ffffff` gives NaN, 255, 255. |
| DesignSystem.HashOptional | src/lib/design-system.ts:249 | A colour without any `#` decodes the same with or without a leading `#`. |
| DesignSystem.ShorthandNotExpanded | src/lib/design-system.ts:247-252 | `#fff` is not expanded; it gives 255, 15, NaN. |
| DesignSystem.ParseIntHexLower | src/lib/design-system.ts:250-252 | ASCII lower-casing of the text does not change `parseInt(…, 16)`. |
| DesignSystem.DecodeIgnoresCase | src/lib/design-system.ts:247-253 | Decoding and the rendered `rgba(...)` do not see ASCII letter case, so `#ECECEC` and `#ececec` agree. |
| DesignSystem.DecodeEncodedColor | src/lib/design-system.ts:247-252 | Round trip: three bytes written as `#rrggbb` decode back to the same three bytes. |
| DesignSystem.ColorWithOpacity | src/lib/design-system.ts:247-254 | The output is `rgba(`, then the three components of the decoded colour in decimal (or `NaN`) separated by `, `, then `, `, the opacity and `)`. |
| DesignSystem.ColorWithOpacityOfEncoded | src/lib/design-system.ts:247-254 | For an encoded colour, the output is `rgba(r, g, b, <opacity>)` with the bytes in decimal. |
| JsString.Trim | src/app/admin/page.tsx:102 | The trimmed text has no white space at either end and is no longer than the input. |
| JsString.TrimIsSlice | src/app/admin/page.tsx:102 | The trimmed text is a contiguous slice of the input. |
| JsString.Split | src/app/admin/page.tsx:102 | `split` yields at least one piece, and no piece contains the separator. |
| JsString.SplitAppend | src/app/admin/page.tsx:102 | Splitting at a separator between two texts gives the pieces of each in order. |
| JsString.JoinShape | src/app/admin/page.tsx:91 | `join` of n pieces is as long as the pieces plus n - 1 separators; it starts with the first piece and ends with the last. |
| JsString.JoinSplit | src/app/admin/page.tsx:102 | Joining the pieces of a split with the same separator gives the text back. |
| JsString.ReplaceAll | src/lib/email.ts:41 | A character not in the replacement is absent from the result, and text without the character is unchanged. |
| JsString.ReplaceAllJoinsPieces | src/lib/email.ts:41 | Replacing every occurrence of a character is joining the pieces between them with the replacement. |
| JsString.RemoveFirst | src/lib/design-system.ts:249 | `replace('#', '')` leaves text without `#` alone. Otherwise it removes exactly the first `#`, at its `indexOf` position, and keeps the text before and after it, so `a#b#` gives `ab#`. |
| JsString.RemoveFirstKeepsLater | src/lib/design-system.ts:249 | `a#b#` gives `ab#`: a later `#` survives. |
| JsString.Substring | src/lib/design-system.ts:250-252 | `substring(start, end)` is never longer than `end - start`, and it is exactly that slice when `end` lies within the text. |
| JsString.IntToString | src/lib/design-system.ts:253 | The decimal text is non-empty and starts with `-` exactly when the integer is negative. |
| JsString.IntToStringInjective | src/lib/design-system.ts:253 | Distinct integers render as distinct decimal texts. |

## Left out

- Sessions: `src/lib/auth.ts` (JWT signing, cookies, the 7-day lifetime) is not part of this model. The guard and handlers take session presence as a boolean.
- `config.matcher` in `src/middleware.ts:27-29` is Next.js routing configuration. Middleware.Decide is modelled on every path, as the function itself behaves.
- Redirect targets are modelled as paths. Resolving them against `request.url` is left out.
- Persistence and mail are I/O:
  - Prisma is a sequence of records plus a failure flag;
  - Resend is an oracle;
  - ids and timestamps are parameters;
  - `console.error` logging is left out.
- zod's `url()` and `email()` checks are kept as uninterpreted predicates.
- Lengths count characters. zod counts UTF-16 code units, and characters outside the Basic Multilingual Plane are not told apart here.
- ProjectApi.ParseProject: zod's issue list is modelled as one issue per failing top-level key, in schema order. Issue codes, messages and nested paths (for example a bad tag at `tags[2]`) are left out.
- Contact.ParseContact: as for ProjectApi.ParseProject, one issue per failing key, without zod's messages.
- Projects.SortDescending: ties in the sort key are left in no promised order, since Prisma promises none.
- The per-id update and delete handlers and the login and logout handlers are not modelled. The dashboard sees them only through the server's ok/not-ok answer.
- In the dashboard, the fetch calls, `confirm()` and `alert()` become arguments (the refetched list, the confirmation, the save or delete result). The loading flag and the form's show/hide buttons are rendering only.
- Email.SendContactEmail: the value the send call resolves with is not inspected, as in `src/lib/email.ts:53`, so an error the provider reports inside that value counts as success. The oracle is true exactly when the call resolves.
- The contact e-mail's HTML interpolates the name, e-mail, subject and message without escaping. It is modelled as written.
- DesignSystem.ParseIntHex: the result is an exact integer. JavaScript's `parseInt` returns a double, so a run of 14 or more hex digits whose value exceeds 2^53 is rounded, and a run of more than 256 digits can become `Infinity`. `colorWithOpacity` reads at most two characters per component, and DesignSystem.DecodeColor bounds each component by 255 in magnitude, where doubles are exact.
- DesignSystem.ParseIntHexDigits: states the exact base-16 value for runs of any length. Where the value exceeds 2^53 JavaScript yields the nearest double instead; `20000000000001` gives 9007199254740992 in JavaScript but 9007199254740993 here.
- DesignSystem.ColorWithOpacity: the opacity is taken as already-rendered text, because JavaScript's number-to-string conversion of floating-point values is not modelled.
- JsString.Substring: JavaScript swaps the arguments when start exceeds end. That never happens at the call sites, where start ≤ end is required.
- NaN renders as `NaN`, and `-0` is not told apart from `0`.
- prisma/seed.ts and prisma/create-admin.ts are database scripts. Seed image URLs are relative paths, so schema validity is not a store invariant.
- `src/lib/design-utils.ts` only delegates to clsx and tailwind-merge, which are not modelled.
- The animated components, navigation and theme components, the page views other than the admin dashboard, and the SEO constants are rendering code or constant data.

=== FILE: admin_dashboard.dfy ===
/**
  The pure parts of the admin dashboard: the text-field codec between the
  form and a project (comma-separated tags, empty text for a missing link),
  the request a submit sends, and how the local list and form change after
  a save or a delete. Network results are parameters.
 */
module AdminDashboard {
  import opened Wrappers
  import opened JsString
  import opened Json
  import opened Projects

  /** A tag as the form can produce it: non-empty, trimmed, comma-free. */
  predicate WellFormedTag(t: string) {
    t != "" && IsTrimmed(t) && ',' !in t
  }

  predicate WellFormedTags(tags: seq<string>) {
    forall k :: 0 <= k < |tags| ==> WellFormedTag(tags[k])
  }

  /** `xs.map(f)` */
  function MapEach<A, B>(f: A -> B, xs: seq<A>): (r: seq<B>)
    ensures |r| == |xs|
    ensures forall k :: 0 <= k < |xs| ==> r[k] == f(xs[k])
  {
    if |xs| == 0 then [] else [f(xs[0])] + MapEach(f, xs[1..])
  }

  lemma {:induction false} MapEachAppend<A, B>(f: A -> B, a: seq<A>, b: seq<A>)
    ensures MapEach(f, a + b) == MapEach(f, a) + MapEach(f, b)
  {
  }

  /** `parts.filter(Boolean)`: drops the empty strings and keeps every
      other one, as often as it occurs; DropEmptyAppend keeps the order. */
  function DropEmpty(parts: seq<string>): (r: seq<string>)
    ensures forall k :: 0 <= k < |r| ==> r[k] != "" && r[k] in parts
    ensures forall t :: t in parts && t != "" ==> t in r
    ensures forall t :: multiset(r)[t] == if t == "" then 0 else multiset(parts)[t]
  {
    if |parts| == 0 then []
    else
      var head := if parts[0] == "" then [] else [parts[0]];
      var rest := DropEmpty(parts[1..]);
      assert parts == [parts[0]] + parts[1..];
      assert multiset(head + rest) == multiset(head) + multiset(rest);
      head + rest
  }

  /** Trimmed, non-empty, comma-free pieces of comma-free segments. */
  lemma {:induction false} CleanedSegmentsWellFormed(segments: seq<string>)
    requires forall k :: 0 <= k < |segments| ==> ',' !in segments[k]
    ensures WellFormedTags(DropEmpty(MapEach(Trim, segments)))
  {
    if |segments| > 0 {
      CleanedSegmentsWellFormed(segments[1..]);
      TrimKeepsOut(segments[0], ',');
      var trimmed := MapEach(Trim, segments);
      assert trimmed[0] == Trim(segments[0]) && trimmed[1..] == MapEach(Trim, segments[1..]);
    }
  }

  lemma {:induction false} DropEmptyAppend(a: seq<string>, b: seq<string>)
    ensures DropEmpty(a + b) == DropEmpty(a) + DropEmpty(b)
  {
    if |a| > 0 {
      assert (a + b)[0] == a[0] && (a + b)[1..] == a[1..] + b;
      DropEmptyAppend(a[1..], b);
    } else {
      assert a + b == b;
    }
  }

  /** `formData.tags.split(',').map(tag => tag.trim()).filter(Boolean)`.
      Every tag it yields is well formed, and each is the trimmed text of
      one comma-separated segment. */
  function ParseTags(text: string): (r: seq<string>)
    ensures WellFormedTags(r)
  {
    var segments := Split(text, ',');
    CleanedSegmentsWellFormed(segments);
    DropEmpty(MapEach(Trim, segments))
  }

  /** `tags.join(', ')`: the tags in order, each pair of neighbours
      separated by a comma and a space. */
  function TagText(tags: seq<string>): (r: string)
    ensures |tags| == 0 ==> r == ""
    ensures |tags| > 0 ==> |r| == TotalLength(tags) + 2 * (|tags| - 1)
    ensures |tags| > 0 ==> r[..|tags[0]|] == tags[0]
  {
    if |tags| == 0 then ""
    else
      JoinShape(tags, ", ");
      Join(tags, ", ")
  }

  /** Segments stay in order: the tags of text before a comma come before
      the tags of text after it. */
  lemma ParseTagsAppend(a: string, b: string)
    ensures ParseTags(a + "," + b) == ParseTags(a) + ParseTags(b)
  {
    SplitAppend(a, b, ',');
    MapEachAppend(Trim, Split(a, ','), Split(b, ','));
    DropEmptyAppend(MapEach(Trim, Split(a, ',')), MapEach(Trim, Split(b, ',')));
  }

  /** The space after a comma makes no difference. */
  lemma ParseTagsLeadingSpace(x: string)
    ensures ParseTags(" " + x) == ParseTags(x)
  {
    var parts := Split(x, ',');
    SplitPrefix(" ", x, ',');
    TrimDropsLeadingWhitespace(' ', parts[0]);
    assert MapEach(Trim, Split(" " + x, ',')) == MapEach(Trim, parts);
  }

  lemma ParseTagsSingle(t: string)
    requires WellFormedTag(t)
    ensures ParseTags(t) == [t]
  {
    SplitWithoutSeparator(t, ',');
    TrimOfTrimmed(t);
    assert MapEach(Trim, [t]) == [t];
    assert DropEmpty([t]) == [t] + DropEmpty([t][1..]);
  }

  lemma TagTextCons(tags: seq<string>)
    requires |tags| >= 2
    ensures TagText(tags) == tags[0] + "," + (" " + TagText(tags[1..]))
  {
    var rest := TagText(tags[1..]);
    assert TagText(tags) == tags[0] + ", " + rest;
    assert tags[0] + ", " + rest == tags[0] + "," + (" " + rest);
  }

  /** One well-formed tag, a comma and a space, then more text. */
  lemma ParseTagsCons(t: string, rest: string, tail: seq<string>)
    requires WellFormedTag(t)
    requires ParseTags(rest) == tail
    ensures ParseTags(t + "," + (" " + rest)) == [t] + tail
  {
    ParseTagsAppend(t, " " + rest);
    ParseTagsSingle(t);
    ParseTagsLeadingSpace(rest);
  }

  lemma TagsRoundTripStep(t: string, tail: seq<string>)
    requires WellFormedTag(t) && |tail| >= 1
    requires ParseTags(TagText(tail)) == tail
    ensures ParseTags(TagText([t] + tail)) == [t] + tail
  {
    var rest := TagText(tail);
    assert TagText([t] + tail) == t + "," + (" " + rest) by {
      TagTextCons([t] + tail);
      assert ([t] + tail)[1..] == tail;
    }
    ParseTagsCons(t, rest, tail);
  }

  /** Text without a comma is one segment: it gives its trimmed text as
      the only tag, or no tag when that is empty. With ParseTagsAppend
      this fixes the tags of every text. */
  lemma ParseTagsSegment(seg: string)
    requires ',' !in seg
    ensures ParseTags(seg) == if Trim(seg) == "" then [] else [Trim(seg)]
  {
    SplitWithoutSeparator(seg, ',');
    assert MapEach(Trim, [seg]) == [Trim(seg)];
    assert DropEmpty([Trim(seg)]) == (if Trim(seg) == "" then [] else [Trim(seg)]) + DropEmpty([]);
  }

  /** A repeated tag is kept as often as it occurs: `x, x` gives two tags. */
  lemma ParseTagsRepeated(t: string)
    requires WellFormedTag(t)
    ensures ParseTags(t + ", " + t) == [t, t]
  {
    assert t + ", " + t == t + "," + (" " + t);
    ParseTagsAppend(t, " " + t);
    ParseTagsLeadingSpace(t);
    ParseTagsSingle(t);
  }

  /** White space before a comma is trimmed from the tag: `a ,b` gives
      `a` and `b`. */
  lemma ParseTagsSpaceBeforeComma(a: string, b: string)
    requires WellFormedTag(a) && WellFormedTag(b)
    ensures ParseTags(a + " ," + b) == [a, b]
  {
    assert a + " ," + b == (a + " ") + "," + b;
    ParseTagsAppend(a + " ", b);
    TrimTrailingSpace(a);
    ParseTagsSegment(a + " ");
    ParseTagsSingle(b);
  }

  lemma TrimTrailingSpace(a: string)
    requires |a| > 0 && IsTrimmed(a)
    ensures Trim(a + " ") == a
  {
    var s := a + " ";
    assert TrimStart(s) == s;
    assert s[..|s| - 1] == a;
    assert TrimEnd(s) == TrimEnd(a);
    assert TrimEnd(a) == a;
  }

  /** Empty text holds no tags. */
  lemma ParseTagsEmpty()
    ensures ParseTags("") == []
  {
    assert Split("", ',') == [""];
    TrimOfTrimmed("");
    assert MapEach(Trim, [""]) == [""];
    assert DropEmpty([""]) == DropEmpty([""][1..]);
  }

  /** Round trip: the tag text the edit form shows parses back to the
      project's tags when they are well formed. */
  lemma {:induction false} TagsRoundTrip(tags: seq<string>)
    requires WellFormedTags(tags)
    ensures ParseTags(TagText(tags)) == tags
  {
    if |tags| == 0 {
      ParseTagsEmpty();
    } else if |tags| == 1 {
      ParseTagsSingle(tags[0]);
    } else {
      var t, tail := tags[0], tags[1..];
      assert tags == [t] + tail;
      TagsRoundTrip(tail);
      TagsRoundTripStep(t, tail);
    }
  }

  /** Parsing normalises: parsing the re-joined tags changes nothing. */
  lemma ParseTagsIdempotent(text: string)
    ensures ParseTags(TagText(ParseTags(text))) == ParseTags(text)
  {
    TagsRoundTrip(ParseTags(text));
  }

  /** `value || null` on a form's link field: empty text means no link. */
  function UrlOrNull(s: string): (r: Option<string>)
    ensures r.None? <==> s == ""
    ensures r.Some? ==> r.value == s
  {
    if s == "" then None else Some(s)
  }

  /** `value || ''` on a stored link when the edit form is filled. */
  function UrlOrEmpty(o: Option<string>): (r: string)
    ensures r == "" <==> o.None? || o.value == ""
    ensures r != "" ==> o == Some(r)
  {
    if o.Some? && o.value != "" then o.value else ""
  }

  /** The two link mappings undo each other (a stored empty link, which
      the form cannot tell from a missing one, aside). */
  lemma UrlMappingRoundTrip(s: string, o: Option<string>)
    ensures UrlOrEmpty(UrlOrNull(s)) == s
    ensures o != Some("") ==> UrlOrNull(UrlOrEmpty(o)) == o
  {
  }

  datatype FormData = FormData(
    title: string,
    description: string,
    content: string,
    imageUrl: string,
    demoUrl: string,
    githubUrl: string,
    tags: string,
    featured: bool)

  const EmptyForm: FormData := FormData("", "", "", "", "", "", "", false)

  /** The object `handleSubmit` serialises as the request body. */
  datatype ProjectData = ProjectData(
    title: string,
    description: string,
    content: string,
    imageUrl: string,
    demoUrl: Option<string>,
    githubUrl: Option<string>,
    tags: seq<string>,
    featured: bool)

  function ToProjectData(form: FormData): (d: ProjectData)
    ensures d.title == form.title && d.description == form.description
    ensures d.content == form.content && d.imageUrl == form.imageUrl
    ensures d.featured == form.featured
    ensures d.tags == ParseTags(form.tags)
    ensures d.demoUrl == UrlOrNull(form.demoUrl) && d.githubUrl == UrlOrNull(form.githubUrl)
  {
    ProjectData(form.title, form.description, form.content, form.imageUrl,
                UrlOrNull(form.demoUrl), UrlOrNull(form.githubUrl),
                ParseTags(form.tags), form.featured)
  }

  /** The form `handleEdit` fills from a project. */
  function FormOf(p: Project): (form: FormData)
    ensures form.title == p.title && form.description == p.description
    ensures form.content == p.content && form.imageUrl == p.imageUrl
    ensures form.featured == p.featured
    ensures form.tags == TagText(p.tags)
    ensures form.demoUrl == UrlOrEmpty(p.demoUrl) && form.githubUrl == UrlOrEmpty(p.githubUrl)
  {
    FormData(p.title, p.description, p.content, p.imageUrl,
             UrlOrEmpty(p.demoUrl), UrlOrEmpty(p.githubUrl), TagText(p.tags), p.featured)
  }

  /** Editing a project and saving without changes sends the project's own
      fields back, when its tags are well formed and no link is stored as
      empty text. */
  lemma EditThenSaveUnchanged(p: Project)
    requires WellFormedTags(p.tags)
    requires p.demoUrl != Some("") && p.githubUrl != Some("")
    ensures ToProjectData(FormOf(p)) ==
      ProjectData(p.title, p.description, p.content, p.imageUrl, p.demoUrl, p.githubUrl, p.tags, p.featured)
  {
    TagsRoundTrip(p.tags);
    UrlMappingRoundTrip("", p.demoUrl);
    UrlMappingRoundTrip("", p.githubUrl);
  }

  datatype HttpMethod = Post | Put

  datatype SaveRequest = SaveRequest(verb: HttpMethod, url: string, body: ProjectData)

  const CollectionUrl: string := "/api/admin/projects"

  /** The request `handleSubmit` sends: PUT to the project's own URL while
      editing, otherwise POST to the collection. */
  function SaveRequestFor(editing: Option<Project>, form: FormData): (r: SaveRequest)
    ensures r.verb == Put <==> editing.Some?
    ensures editing.None? ==> r.url == CollectionUrl
    ensures editing.Some? ==> r.url == CollectionUrl + "/" + editing.value.id
    ensures r.body == ToProjectData(form)
  {
    match editing
    case Some(p) => SaveRequest(Put, CollectionUrl + "/" + p.id, ToProjectData(form))
    case None => SaveRequest(Post, CollectionUrl, ToProjectData(form))
  }

  /** The id a PUT addresses can be read back from its URL. */
  lemma PutUrlNamesProject(p: Project, form: FormData)
    ensures SaveRequestFor(Some(p), form).url[|CollectionUrl| + 1..] == p.id
  {
  }

  /** The dashboard's state: the listed projects, whether the form is open,
      the project being edited, and the form's fields. */
  datatype Dashboard = Dashboard(projects: seq<Project>, showForm: bool, editing: Option<Project>, form: FormData)

  /** `handleEdit(p)` */
  function Edit(d: Dashboard, p: Project): (r: Dashboard)
    ensures r.projects == d.projects
    ensures r.showForm && r.editing == Some(p) && r.form == FormOf(p)
  {
    Dashboard(d.projects, true, Some(p), FormOf(p))
  }

  /** What became of a submit: the server accepted it (and the refetched
      list, if that request succeeded), refused it, or the request threw. */
  datatype SaveResult = Saved(refetched: Option<seq<Project>>) | Refused | Unsent

  /** The state after `handleSubmit`: on success the form is closed and
      reset to its initial empty state and the list is the refetched one;
      otherwise nothing changes. */
  function AfterSubmit(d: Dashboard, result: SaveResult): (r: Dashboard)
    ensures result.Saved? ==> r.form == EmptyForm && !r.showForm && r.editing.None?
    ensures result.Saved? && result.refetched.Some? ==> r.projects == result.refetched.value
    ensures result.Saved? && result.refetched.None? ==> r.projects == d.projects
    ensures !result.Saved? ==> r == d
  {
    match result
    case Saved(refetched) => Dashboard(refetched.GetOr(d.projects), false, None, EmptyForm)
    case _ => d
  }

  /** `projects.filter(p => p.id !== id)` */
  function WithoutId(projects: seq<Project>, id: string): (r: seq<Project>)
    ensures |r| <= |projects|
    ensures forall k :: 0 <= k < |r| ==> r[k].id != id
  {
    if |projects| == 0 then []
    else (if projects[0].id == id then [] else [projects[0]]) + WithoutId(projects[1..], id)
  }

  /** The filter keeps every project without that id as often as it was
      listed and drops every project with it. */
  lemma {:induction false} WithoutIdCounts(projects: seq<Project>, id: string)
    ensures forall p :: multiset(WithoutId(projects, id))[p] == if p.id == id then 0 else multiset(projects)[p]
  {
    if |projects| > 0 {
      WithoutIdCounts(projects[1..], id);
      assert projects == [projects[0]] + projects[1..];
    }
  }

  /** Removal keeps the others in their order: it works piecewise. */
  lemma {:induction false} WithoutIdAppend(a: seq<Project>, b: seq<Project>, id: string)
    ensures WithoutId(a + b, id) == WithoutId(a, id) + WithoutId(b, id)
  {
    if |a| > 0 {
      var head := if a[0].id == id then [] else [a[0]];
      assert (a + b)[0] == a[0] && (a + b)[1..] == a[1..] + b;
      assert WithoutId(a + b, id) == head + WithoutId(a[1..] + b, id);
      WithoutIdAppend(a[1..], b, id);
      assert WithoutId(a, id) == head + WithoutId(a[1..], id);
    } else {
      assert a + b == b;
    }
  }

  /** With unique ids, deleting a listed project removes exactly one entry. */
  lemma WithoutListedId(projects: seq<Project>, i: nat)
    requires i < |projects| && UniqueIds(projects)
    ensures WithoutId(projects, projects[i].id) == projects[..i] + projects[i + 1..]
  {
    var p := projects[i];
    var before, after := projects[..i], projects[i + 1..];
    forall k | 0 <= k < |before| ensures before[k].id != p.id {
      assert before[k] == projects[k];
    }
    forall k | 0 <= k < |after| ensures after[k].id != p.id {
      assert after[k] == projects[i + 1 + k];
    }
    assert projects == before + [p] + after;
    WithoutSingleListed(before, p, after);
  }

  lemma WithoutSingleListed(before: seq<Project>, p: Project, after: seq<Project>)
    requires forall k :: 0 <= k < |before| ==> before[k].id != p.id
    requires forall k :: 0 <= k < |after| ==> after[k].id != p.id
    ensures WithoutId(before + [p] + after, p.id) == before + after
  {
    var front := before + [p];
    WithoutIdAppend(before, [p], p.id);
    NoIdNoChange(before, p.id);
    assert WithoutId([p], p.id) == [];
    assert WithoutId(front, p.id) == before;
    WithoutIdAppend(front, after, p.id);
    NoIdNoChange(after, p.id);
  }

  lemma {:induction false} NoIdNoChange(projects: seq<Project>, id: string)
    requires forall k :: 0 <= k < |projects| ==> projects[k].id != id
    ensures WithoutId(projects, id) == projects
  {
    if |projects| > 0 {
      NoIdNoChange(projects[1..], id);
      assert projects == [projects[0]] + projects[1..];
    }
  }

  /** What became of a delete: the server answered ok, answered with an
      error, or the request threw. */
  datatype DeleteResult = Deleted | NotDeleted | Unsent

  /** The state after `handleDelete(id)`: only a confirmed delete the server
      answered ok drops the projects with that id from the local list. */
  function AfterDelete(d: Dashboard, id: string, confirmed: bool, result: DeleteResult): (r: Dashboard)
    ensures confirmed && result == Deleted ==>
      r == d.(projects := WithoutId(d.projects, id))
    ensures !confirmed || result != Deleted ==> r == d
    ensures forall k :: 0 <= k < |r.projects| ==> r.projects[k] in d.projects
  {
    if confirmed && result == Deleted then
      var kept := WithoutId(d.projects, id);
      WithoutIdCounts(d.projects, id);
      assert forall k :: 0 <= k < |kept| ==> multiset(kept)[kept[k]] > 0;
      d.(projects := kept)
    else d
  }
}

=== FILE: contact.dfy ===
/**
  The contact endpoint: `contactSchema` and `POST /api/contact`, which
  validates the submission and hands it to the e-mail helper. zod's e-mail
  check, the `CONTACT_EMAIL` variable and the mail provider are parameters.
 */
module Contact {
  import opened Wrappers
  import opened Json
  import opened Http
  import opened Email

  /** The keys of `contactSchema`, in declaration order. */
  datatype ContactKey = Name | EmailAddress | Subject | Message

  const ContactKeys: seq<ContactKey> := [Name, EmailAddress, Subject, Message]

  function ContactKeyName(k: ContactKey): string {
    match k
    case Name => "name"
    case EmailAddress => "email"
    case Subject => "subject"
    case Message => "message"
  }

  const MaxName: nat := 100
  const MaxSubject: nat := 200
  const MinMessage: nat := 10
  const MaxMessage: nat := 5000

  /** The schema's rule for one key. The subject is `.optional()` but not
      nullable: `null` is rejected, the empty string accepted. Lengths count
      UTF-16 code units, one per character here. */
  predicate ContactFieldOk(fields: map<string, Json>, k: ContactKey, isEmail: string -> bool) {
    var key := ContactKeyName(k);
    match k
    case Name =>
      key in fields && fields[key].JString? && 1 <= |fields[key].s| <= MaxName
    case EmailAddress =>
      key in fields && fields[key].JString? && isEmail(fields[key].s)
    case Subject =>
      key !in fields || (fields[key].JString? && |fields[key].s| <= MaxSubject)
    case Message =>
      key in fields && fields[key].JString? && MinMessage <= |fields[key].s| <= MaxMessage
  }

  predicate AcceptsContact(body: Json, isEmail: string -> bool) {
    body.JObject? && forall k :: ContactFieldOk(body.fields, k, isEmail)
  }

  /** The fields of an accepted body as zod passes them on. */
  function ReadContact(f: map<string, Json>, isEmail: string -> bool): (r: ContactData)
    requires forall k :: ContactFieldOk(f, k, isEmail)
    ensures "name" in f && f["name"] == JString(r.name) && 1 <= |r.name| <= MaxName
    ensures "email" in f && f["email"] == JString(r.email) && isEmail(r.email)
    ensures "message" in f && f["message"] == JString(r.message)
    ensures MinMessage <= |r.message| <= MaxMessage
    ensures r.subject.Some? <==> "subject" in f
    ensures r.subject.Some? ==> f["subject"] == JString(r.subject.value) && |r.subject.value| <= MaxSubject
  {
    assert ContactFieldOk(f, Name, isEmail) && ContactFieldOk(f, EmailAddress, isEmail);
    assert ContactFieldOk(f, Subject, isEmail) && ContactFieldOk(f, Message, isEmail);
    ContactData(f["name"].s, f["email"].s,
                if "subject" in f then Some(f["subject"].s) else None,
                f["message"].s)
  }

  /** `contactSchema.parse(body)`: exactly the bodies the schema describes
      are accepted; otherwise one issue for a body that is not an object,
      or one per failing key. */
  function ParseContact(body: Json, isEmail: string -> bool): (r: Checked<ContactData>)
    ensures r.Valid? <==> AcceptsContact(body, isEmail)
    ensures r.Valid? ==> r.value == ReadContact(body.fields, isEmail)
    ensures r.Invalid? && !body.JObject? ==> r.issues == [Issue("")]
    ensures r.Invalid? && body.JObject? ==>
      |r.issues| > 0 &&
      forall k :: Issue(ContactKeyName(k)) in r.issues <==> !ContactFieldOk(body.fields, k, isEmail)
  {
    if !body.JObject? then Invalid([Issue("")])
    else
      var f := body.fields;
      var ok := k => ContactFieldOk(f, k, isEmail);
      var bad := FailingKeys(ContactKeys, ok);
      if |bad| > 0 then
        var issues := IssuesAt(bad, ContactKeyName);
        IssuesNameFailingContactKeys(f, isEmail, ok, bad, issues);
        Invalid(issues)
      else
        NoFailingContactKey(f, isEmail, ok, bad);
        Valid(ReadContact(f, isEmail))
  }

  lemma NoFailingContactKey(f: map<string, Json>, isEmail: string -> bool, ok: ContactKey -> bool, bad: seq<ContactKey>)
    requires forall k :: ok(k) == ContactFieldOk(f, k, isEmail)
    requires bad == FailingKeys(ContactKeys, ok)
    requires |bad| == 0
    ensures forall k :: ContactFieldOk(f, k, isEmail)
  {
    EveryContactKeyListed();
  }

  lemma IssuesNameFailingContactKeys(f: map<string, Json>, isEmail: string -> bool, ok: ContactKey -> bool,
                                        bad: seq<ContactKey>, issues: seq<Issue>)
    requires forall k :: ok(k) == ContactFieldOk(f, k, isEmail)
    requires bad == FailingKeys(ContactKeys, ok)
    requires issues == IssuesAt(bad, ContactKeyName)
    ensures forall k :: Issue(ContactKeyName(k)) in issues <==> !ContactFieldOk(f, k, isEmail)
  {
    EveryContactKeyListed();
    ContactKeyNameInjective();
    FailingKeysNamed(ContactKeys, ok, ContactKeyName);
  }

  lemma EveryContactKeyListed()
    ensures forall k :: k in ContactKeys
  {
    forall k ensures k in ContactKeys {
      var i := match k case Name => 0 case EmailAddress => 1 case Subject => 2 case Message => 3;
      assert ContactKeys[i] == k;
    }
  }

  lemma ContactKeyNameInjective()
    ensures forall a, b :: ContactKeyName(a) == ContactKeyName(b) ==> a == b
  {
  }

  /** The response, and the message handed to the provider if one was. */
  datatype ContactOutcome = ContactOutcome(response: Response, attempted: Option<EmailMessage>)

  const ProcessingFailed: Response := Response(500, ErrorMessage("Failed to process contact form submission"))
  const SendingFailed: Response := Response(500, ErrorMessage("Failed to send email. Please try again."))
  const MessageSent: Response := Response(200, Acknowledged(true, "Message sent successfully!"))

  /** `POST /api/contact`. A body that is not JSON gives the generic 500; a
      schema violation gives 400 with the issues and sends nothing; a valid
      submission is e-mailed once, and whether the send call throws
      decides between 200 and the send-failure 500. */
  function Post(body: RequestBody, isEmail: string -> bool, contactEmail: Option<string>,
                send: EmailMessage -> bool): (r: ContactOutcome)
    ensures body.Malformed? ==> r == ContactOutcome(ProcessingFailed, None)
    ensures body.Parsed? && !AcceptsContact(body.json, isEmail) ==>
      && r.attempted.None?
      && r.response.status == 400
      && r.response.payload.ErrorDetails?
      && r.response.payload.error == "Validation failed"
      && |r.response.payload.details| > 0
    ensures r.attempted.Some? <==> body.Parsed? && AcceptsContact(body.json, isEmail)
    ensures r.attempted.Some? ==>
      && r.attempted.value == ComposeEmail(ReadContact(body.json.fields, isEmail), contactEmail)
      && (r.response == MessageSent <==> send(r.attempted.value))
      && (r.response == SendingFailed <==> !send(r.attempted.value))
    ensures r.response.status == 200 <==> r.response == MessageSent
  {
    if body.Malformed? then ContactOutcome(ProcessingFailed, None)
    else match ParseContact(body.json, isEmail)
      case Invalid(issues) =>
        ContactOutcome(Response(400, ErrorDetails("Validation failed", issues)), None)
      case Valid(data) =>
        var message := ComposeEmail(data, contactEmail);
        match SendContactEmail(data, contactEmail, send)
        case Sent => ContactOutcome(MessageSent, Some(message))
        case Failed => ContactOutcome(SendingFailed, Some(message))
  }

  /** The message's reply address is the submitted e-mail address, and its
      subject is the submitted one unless that is missing or empty. */
  lemma SentMessageFields(body: Json, isEmail: string -> bool, contactEmail: Option<string>,
                          send: EmailMessage -> bool)
    requires AcceptsContact(body, isEmail)
    ensures
      var m := Post(Parsed(body), isEmail, contactEmail, send).attempted.value;
      var f := body.fields;
      && f["email"] == JString(m.replyTo)
      && ("subject" in f && f["subject"] != JString("") ==> f["subject"] == JString(m.subject))
      && ("subject" !in f || f["subject"] == JString("") ==>
            f["name"] == JString(m.subject[|DefaultSubjectPrefix|..]) && m.subject[..|DefaultSubjectPrefix|] == DefaultSubjectPrefix)
  {
    var data := ReadContact(body.fields, isEmail);
    var m := Post(Parsed(body), isEmail, contactEmail, send).attempted.value;
    assert m == ComposeEmail(data, contactEmail);
    assert m.replyTo == data.email && m.subject == SubjectLine(data.subject, data.name);
    if data.subject.None? || data.subject.value == "" {
      PrefixSplits(DefaultSubjectPrefix, data.name, m.subject);
    }
  }

  lemma PrefixSplits(prefix: string, rest: string, line: string)
    requires line == prefix + rest
    ensures line[..|prefix|] == prefix && line[|prefix|..] == rest
  {
  }

  /** An empty subject passes the schema: adding `"subject": ""` to a body
      changes nothing about whether it is accepted. */
  lemma EmptySubjectAccepted(f: map<string, Json>, isEmail: string -> bool)
    requires "subject" !in f
    ensures AcceptsContact(JObject(f["subject" := JString("")]), isEmail) <==> AcceptsContact(JObject(f), isEmail)
  {
    var g := f["subject" := JString("")];
    forall k ensures ContactFieldOk(g, k, isEmail) <==> ContactFieldOk(f, k, isEmail) {
      if k != Subject {
        assert ContactKeyName(k) != "subject";
      }
    }
  }

  /** A `null` subject is rejected: optional is not nullable. */
  lemma NullSubjectRejected(f: map<string, Json>, isEmail: string -> bool)
    requires "subject" in f && f["subject"] == JNull
    ensures !AcceptsContact(JObject(f), isEmail)
  {
    assert !ContactFieldOk(f, Subject, isEmail);
  }
  /** A rejected object body is answered with one issue for each key that
      breaks its rule and none for the others. */
  lemma RejectionNamesFailingContactKeys(body: Json, isEmail: string -> bool, contactEmail: Option<string>,
                                         send: EmailMessage -> bool)
    requires body.JObject? && !AcceptsContact(body, isEmail)
    ensures
      var r := Post(Parsed(body), isEmail, contactEmail, send).response;
      && r.payload.ErrorDetails?
      && forall k :: Issue(ContactKeyName(k)) in r.payload.details <==> !ContactFieldOk(body.fields, k, isEmail)
  {
    var parsed := ParseContact(body, isEmail);
    assert Post(Parsed(body), isEmail, contactEmail, send).response
        == Response(400, ErrorDetails("Validation failed", parsed.issues));
  }
}

=== FILE: design_system.dfy ===
/**
  The design-token helpers: wrapping a token name as a CSS variable, the
  gradient table lookup, and turning a hex colour into an `rgba(...)`
  string. The hex decoding follows ECMAScript's `parseInt(s, 16)`.
 */
module DesignSystem {
  import opened JsString

  /** `cssVar(token)`: the token wrapped as `var(--token)`. */
  function CssVar(token: string): (r: string)
    ensures |r| == |token| + 7
    ensures r[..6] == "var(--" && r[|r| - 1] == ')'
    ensures r[6..|r| - 1] == token
  {
    "var(--" + token + ")"
  }

  /** Distinct tokens give distinct variables. */
  lemma CssVarInjective(a: string, b: string)
    requires CssVar(a) == CssVar(b)
    ensures a == b
  {
    var r := CssVar(a);
    assert a == r[6..|r| - 1];
  }

  /** The keys of the `gradients` table. */
  datatype GradientKey = Blue | Gray | Text

  /** The two colour stops of each table entry, as hex digits. */
  function Stops(k: GradientKey): (stops: (string, string))
    ensures |stops.0| == 6 && AllHex(stops.0)
    ensures |stops.1| == 6 && AllHex(stops.1)
  {
    match k
    case Blue => ("7da3f6", "0020d7")
    case Gray => ("484848", "333333")
    case Text => ("3c3c3c", "323232")
  }

  /** `gradient(type)`: the table entry for the key. Every entry is a
      top-to-bottom linear gradient between two six-digit hex colours, the
      first at 0% and the second at 100%. */
  function Gradient(k: GradientKey): (r: string)
    ensures |r| == 49 && r[..25] == "linear-gradient(180deg, #"
    ensures AllHex(r[25..31]) && r[31..37] == " 0%, #"
    ensures AllHex(r[37..43]) && r[43..] == " 100%)"
  {
    var (from, to) := Stops(k);
    var r := "linear-gradient(180deg, #" + from + " 0%, #" + to + " 100%)";
    assert r[25..31] == from && r[37..43] == to;
    r
  }

  /** Every key names its own gradient: the entries differ in the first
      colour stop. */
  lemma GradientInjective(a: GradientKey, b: GradientKey)
    requires Gradient(a) == Gradient(b)
    ensures a == b
  {
    assert Gradient(a)[26] == Gradient(b)[26];
    assert Gradient(a)[25] == Gradient(b)[25];
  }

  predicate IsHexDigit(c: char) {
    ('0' <= c <= '9') || ('a' <= c <= 'f') || ('A' <= c <= 'F')
  }

  predicate AllHex(s: string) {
    forall k :: 0 <= k < |s| ==> IsHexDigit(s[k])
  }

  function HexValue(c: char): (v: nat)
    requires IsHexDigit(c)
    ensures v < 16
  {
    if '0' <= c <= '9' then c as int - '0' as int
    else if 'a' <= c <= 'f' then c as int - 'a' as int + 10
    else c as int - 'A' as int + 10
  }

  /** The base-16 value of a string of hex digits, most significant first. */
  function HexNumber(s: string): nat
    requires AllHex(s)
  {
    if |s| == 0 then 0 else 16 * HexNumber(s[..|s| - 1]) + HexValue(s[|s| - 1])
  }

  /** The longest prefix made of hex digits. */
  function HexPrefix(s: string): (r: string)
    ensures r <= s && AllHex(r)
    ensures |r| == |s| || !IsHexDigit(s[|r|])
  {
    if |s| == 0 || !IsHexDigit(s[0]) then ""
    else
      var rest := HexPrefix(s[1..]);
      assert s == [s[0]] + s[1..];
      [s[0]] + rest
  }

  /** A JavaScript number as `parseInt` returns it: `NaN` or an integer.
      `-0` is not told apart from `0`; it renders the same. */
  datatype Number = NaN | Finite(value: int)

  /** The sign step of `parseInt`: whether a `-` was seen, and the text
      after an optional `+` or `-`. */
  function StripSign(t: string): (bool, string) {
    if |t| > 0 && t[0] == '-' then (true, t[1..])
    else if |t| > 0 && t[0] == '+' then (false, t[1..])
    else (false, t)
  }

  /** The radix-16 step: an optional `0x` or `0X` is dropped. */
  function StripHexMarker(u: string): string {
    if |u| >= 2 && u[0] == '0' && (u[1] == 'x' || u[1] == 'X') then u[2..] else u
  }

  /** The value of a signed run of digits, `NaN` when there are none. */
  function SignedValue(negative: bool, digits: string): Number
    requires AllHex(digits)
  {
    if digits == "" then NaN
    else
      var n: int := HexNumber(digits);
      Finite(if negative then -n else n)
  }

  function Pow16(n: nat): nat {
    if n == 0 then 1 else 16 * Pow16(n - 1)
  }

  lemma {:induction false} Pow16Monotone(a: nat, b: nat)
    requires a <= b
    ensures Pow16(a) <= Pow16(b)
  {
    if a < b {
      Pow16Monotone(a, b - 1);
    }
  }

  /** `n` hex digits hold a value below `16^n`. */
  lemma {:induction false} HexNumberBelow(s: string)
    requires AllHex(s)
    ensures HexNumber(s) < Pow16(|s|)
  {
    if |s| > 0 {
      HexNumberBelow(s[..|s| - 1]);
    }
  }

  /** `parseInt(s, 16)`: leading white space is skipped, then an optional
      sign, then an optional `0x`/`0X`, then the longest run of hex digits;
      no digits at all gives `NaN`. The magnitude of a result stays below
      16 to the power of the length of the text. */
  function ParseIntHex(s: string): (r: Number)
    ensures r.Finite? ==> -(Pow16(|s|) as int) < r.value < Pow16(|s|)
  {
    var (negative, u) := StripSign(TrimStart(s));
    var digits := HexPrefix(StripHexMarker(u));
    TrimStartSuffix(s);
    HexNumberBelow(digits);
    Pow16Monotone(|digits|, |s|);
    SignedValue(negative, digits)
  }

  /** Text that starts with a character that is neither white space, a
      sign nor a hex digit has no number in it. */
  lemma ParseIntHexNoDigits(s: string)
    requires |s| == 0 || (!IsWhitespace(s[0]) && s[0] != '-' && s[0] != '+' && !IsHexDigit(s[0]))
    ensures ParseIntHex(s) == NaN
  {
  }

  lemma HexDigitNotSpecial(c: char)
    requires IsHexDigit(c)
    ensures !IsWhitespace(c) && c != '-' && c != '+' && c != 'x' && c != 'X'
  {
  }

  lemma {:induction false} HexPrefixOfHex(s: string)
    requires AllHex(s)
    ensures HexPrefix(s) == s
  {
    if |s| > 0 {
      HexPrefixOfHex(s[1..]);
    }
  }

  /** How a number is written into a template literal. */
  function NumberText(x: Number): string {
    match x
    case NaN => "NaN"
    case Finite(n) => IntToString(n)
  }

  datatype Rgb = Rgb(r: Number, g: Number, b: Number)

  /** The decoding half of `colorWithOpacity`: the first `#` is removed and
      the characters [0,2), [2,4) and [4,6) are each read in base 16. */
  function DecodeColor(color: string): (c: Rgb)
    ensures SmallComponent(c.r) && SmallComponent(c.g) && SmallComponent(c.b)
  {
    var hex := RemoveFirst(color, '#');
    var r, g, b := Substring(hex, 0, 2), Substring(hex, 2, 4), Substring(hex, 4, 6);
    Pow16Monotone(|r|, 2);
    Pow16Monotone(|g|, 2);
    Pow16Monotone(|b|, 2);
    Rgb(ParseIntHex(r), ParseIntHex(g), ParseIntHex(b))
  }

  /** `NaN`, or an integer of at most two hex digits, whichever sign. */
  predicate SmallComponent(x: Number) {
    x.Finite? ==> -255 <= x.value <= 255
  }

  /** The three components in decimal, separated by `, `. */
  function RgbText(c: Rgb): string {
    NumberText(c.r) + ", " + NumberText(c.g) + ", " + NumberText(c.b)
  }

  /** `colorWithOpacity(color, opacity)`: `rgba(`, the three decoded
      components separated by `, `, then the opacity and `)`. */
  function ColorWithOpacity(color: string, opacity: string): (r: string)
    ensures var c := DecodeColor(color);
      var middle := NumberText(c.r) + ", " + NumberText(c.g) + ", " + NumberText(c.b);
      && |r| == 5 + |middle| + 2 + |opacity| + 1
      && r[..5] == "rgba("
      && r[5..5 + |middle|] == middle
      && r[5 + |middle|..] == ", " + opacity + ")"
  {
    var middle := RgbText(DecodeColor(color));
    ThreeParts("rgba(", middle, ", " + opacity + ")");
    "rgba(" + middle + (", " + opacity + ")")
  }

  /** Where each part of a three-part concatenation sits. */
  lemma ThreeParts(a: string, m: string, z: string)
    ensures |a + m + z| == |a| + |m| + |z|
    ensures (a + m + z)[..|a|] == a
    ensures (a + m + z)[|a|..|a| + |m|] == m
    ensures (a + m + z)[|a| + |m|..] == z
  {
  }

  /** A run of hex digits reads as its base-16 value. */
  lemma ParseIntHexDigits(s: string)
    requires |s| > 0 && AllHex(s)
    ensures ParseIntHex(s) == Finite(HexNumber(s))
  {
    HexDigitNotSpecial(s[0]);
    if |s| >= 2 {
      HexDigitNotSpecial(s[1]);
    }
    assert TrimStart(s) == s;
    assert StripSign(s) == (false, s);
    assert StripHexMarker(s) == s;
    HexPrefixOfHex(s);
  }

  lemma HexNumberOfPair(s: string)
    requires |s| == 2 && AllHex(s)
    ensures HexNumber(s) == 16 * HexValue(s[0]) + HexValue(s[1])
  {
    var first := s[..1];
    assert first[..0] == "" && first[0] == s[0];
    assert HexNumber(first) == HexValue(s[0]);
  }

  /** Two hex digits read as a value in 0..255. */
  lemma HexPairValue(s: string)
    requires |s| == 2 && AllHex(s)
    ensures ParseIntHex(s) == Finite(16 * HexValue(s[0]) + HexValue(s[1]))
    ensures 0 <= 16 * HexValue(s[0]) + HexValue(s[1]) <= 255
  {
    ParseIntHexDigits(s);
    HexNumberOfPair(s);
  }

  /** The value of the two digits of `hex` from `i` on. */
  function PairAt(hex: string, i: nat): int
    requires i + 2 <= |hex| && AllHex(hex)
  {
    16 * HexValue(hex[i]) + HexValue(hex[i + 1])
  }

  lemma PairComponent(hex: string, i: nat)
    requires i + 2 <= |hex| && AllHex(hex)
    ensures ParseIntHex(Substring(hex, i, i + 2)) == Finite(PairAt(hex, i))
    ensures 0 <= PairAt(hex, i) <= 255
  {
    var pair := Substring(hex, i, i + 2);
    assert |pair| == 2 && AllHex(pair) && pair[0] == hex[i] && pair[1] == hex[i + 1] by {
      assert pair == hex[i..i + 2];
    }
    HexPairValue(pair);
  }

  /** A leading `#` is dropped before the pairs are read. */
  lemma DecodeAfterHash(h: string)
    ensures DecodeColor("#" + h)
         == Rgb(ParseIntHex(Substring(h, 0, 2)), ParseIntHex(Substring(h, 2, 4)), ParseIntHex(Substring(h, 4, 6)))
  {
    var color := "#" + h;
    assert RemoveFirst(color, '#') == h by {
      assert color[0] == '#' && color[1..] == h;
    }
  }

  /** For `#` and six hex digits, the components are the base-16 values of
      the three digit pairs, each in 0..255. */
  lemma DecodeSixDigits(h: string)
    requires |h| == 6 && AllHex(h)
    ensures DecodeColor("#" + h) == Rgb(Finite(PairAt(h, 0)), Finite(PairAt(h, 2)), Finite(PairAt(h, 4)))
    ensures 0 <= PairAt(h, 0) <= 255 && 0 <= PairAt(h, 2) <= 255 && 0 <= PairAt(h, 4) <= 255
  {
    var r, g, b := ParseIntHex(Substring(h, 0, 2)), ParseIntHex(Substring(h, 2, 4)), ParseIntHex(Substring(h, 4, 6));
    DecodeAfterHash(h);
    assert r == Finite(PairAt(h, 0)) by { PairComponent(h, 0); }
    assert g == Finite(PairAt(h, 2)) by { PairComponent(h, 2); }
    assert b == Finite(PairAt(h, 4)) by { PairComponent(h, 4); }
  }

  /** Only the first `#` goes: with a second one, the first pair is `#f`,
      which has no leading hex digit. */
  lemma OnlyFirstHashRemoved()
    ensures DecodeColor("##ffffff") == Rgb(NaN, Finite(255), Finite(255))
  {
    var color := "##ffffff";
    var hex := RemoveFirst(color, '#');
    assert hex == "#ffffff" by {
      assert color[0] == '#' && color[1..] == "#ffffff";
    }
    assert Substring(hex, 0, 2) == "#f" && Substring(hex, 2, 4) == "ff" && Substring(hex, 4, 6) == "ff" by {
      assert hex[0..2] == "#f" && hex[2..4] == "ff" && hex[4..6] == "ff";
    }
    assert ParseIntHex("#f") == NaN by {
      assert !IsWhitespace('#') && !IsHexDigit('#');
      ParseIntHexNoDigits("#f");
    }
    assert ParseIntHex("ff") == Finite(255) by {
      HexPairValue("ff");
    }
  }

  /** Both colour stops of every gradient are colours `colorWithOpacity`
      reads in full: three components between 0 and 255. */
  lemma GradientStopsDecode(k: GradientKey)
    ensures var c := DecodeColor(Gradient(k)[24..31]);
      c.r.Finite? && c.g.Finite? && c.b.Finite? && 0 <= c.r.value && 0 <= c.g.value && 0 <= c.b.value
    ensures var c := DecodeColor(Gradient(k)[36..43]);
      c.r.Finite? && c.g.Finite? && c.b.Finite? && 0 <= c.r.value && 0 <= c.g.value && 0 <= c.b.value
  {
    var r := Gradient(k);
    assert r[24..31] == "#" + r[25..31] by {
      assert r[24] == r[..25][24];
    }
    assert r[36..43] == "#" + r[37..43] by {
      assert r[36] == r[31..37][5];
    }
    DecodeSixDigits(r[25..31]);
    DecodeSixDigits(r[37..43]);
  }

  /** The leading `#` is optional: a colour without one decodes the same. */
  lemma HashOptional(h: string)
    requires '#' !in h
    ensures DecodeColor("#" + h) == DecodeColor(h)
  {
    DecodeAfterHash(h);
  }

  /** Three-digit shorthand is not expanded: `#fff` reads as the pairs
      `ff`, `f` and nothing. */
  lemma ShorthandNotExpanded()
    ensures DecodeColor("#fff") == Rgb(Finite(255), Finite(15), NaN)
  {
    var color := "#fff";
    var hex := RemoveFirst(color, '#');
    assert hex == "fff" by {
      assert color[0] == '#' && color[1..] == "fff";
    }
    assert Substring(hex, 0, 2) == "ff" && Substring(hex, 2, 4) == "f" && Substring(hex, 4, 6) == "" by {
      assert hex[0..2] == "ff" && hex[2..3] == "f";
    }
    SingleDigitValue('f');
    HexPairValue("ff");
    ParseIntHexNoDigits("");
  }

  lemma SingleDigitValue(c: char)
    requires IsHexDigit(c)
    ensures ParseIntHex([c]) == Finite(HexValue(c))
  {
    ParseIntHexDigits([c]);
    assert [c][..0] == "";
  }

  /** ASCII upper-case letters made lower-case; everything else kept. */
  function LowerChar(c: char): char {
    if 'A' <= c <= 'Z' then (c as int + 32) as char else c
  }

  function AsciiLower(s: string): (r: string)
    ensures |r| == |s|
    ensures forall k :: 0 <= k < |s| ==> r[k] == LowerChar(s[k])
  {
    seq(|s|, k requires 0 <= k < |s| => LowerChar(s[k]))
  }

  lemma LowerCharKeeps(c: char)
    ensures IsWhitespace(LowerChar(c)) <==> IsWhitespace(c)
    ensures IsHexDigit(LowerChar(c)) <==> IsHexDigit(c)
    ensures IsHexDigit(c) ==> HexValue(LowerChar(c)) == HexValue(c)
    ensures LowerChar(c) == '#' <==> c == '#'
    ensures LowerChar(c) == '-' <==> c == '-'
    ensures LowerChar(c) == '+' <==> c == '+'
    ensures LowerChar(c) == '0' <==> c == '0'
    ensures LowerChar(c) == 'x' <==> c == 'x' || c == 'X'
    ensures LowerChar(c) != 'X'
  {
  }

  lemma LowerSlice(s: string, a: nat, b: nat)
    requires a <= b <= |s|
    ensures AsciiLower(s)[a..b] == AsciiLower(s[a..b])
  {
  }

  /** Lower-casing commutes with taking the first character off. */
  lemma LowerUncons(s: string)
    requires |s| > 0
    ensures AsciiLower(s)[0] == LowerChar(s[0])
    ensures AsciiLower(s)[1..] == AsciiLower(s[1..])
  {
    LowerSlice(s, 1, |s|);
  }

  lemma {:induction false} TrimStartLower(s: string)
    ensures TrimStart(AsciiLower(s)) == AsciiLower(TrimStart(s))
  {
    if |s| > 0 {
      var l := AsciiLower(s);
      LowerCharKeeps(s[0]);
      LowerUncons(s);
      if IsWhitespace(s[0]) {
        assert IsWhitespace(l[0]);
        assert TrimStart(l) == TrimStart(l[1..]);
        TrimStartLower(s[1..]);
      } else {
        assert !IsWhitespace(l[0]);
        assert TrimStart(l) == l;
      }
    }
  }

  lemma {:induction false} HexPrefixLower(s: string)
    ensures HexPrefix(AsciiLower(s)) == AsciiLower(HexPrefix(s))
  {
    if |s| > 0 {
      var l := AsciiLower(s);
      LowerCharKeeps(s[0]);
      LowerUncons(s);
      if IsHexDigit(s[0]) {
        var rest := HexPrefix(s[1..]);
        assert HexPrefix(s) == [s[0]] + rest;
        assert HexPrefix(l) == [l[0]] + HexPrefix(AsciiLower(s[1..]));
        HexPrefixLower(s[1..]);
        LowerCons(s[0], rest);
      } else {
        assert HexPrefix(l) == "";
      }
    }
  }

  lemma LowerCons(c: char, t: string)
    ensures AsciiLower([c] + t) == [LowerChar(c)] + AsciiLower(t)
  {
    var a, b := AsciiLower([c] + t), [LowerChar(c)] + AsciiLower(t);
    assert |a| == |b|;
    forall k | 0 <= k < |a| ensures a[k] == b[k] {
      if k > 0 { assert ([c] + t)[k] == t[k - 1]; }
    }
  }

  lemma {:induction false} HexNumberLower(s: string)
    requires AllHex(s)
    ensures AllHex(AsciiLower(s)) && HexNumber(AsciiLower(s)) == HexNumber(s)
  {
    forall k | 0 <= k < |s| ensures IsHexDigit(AsciiLower(s)[k]) {
      LowerCharKeeps(s[k]);
    }
    if |s| > 0 {
      LowerCharKeeps(s[|s| - 1]);
      LowerSlice(s, 0, |s| - 1);
      HexNumberLower(s[..|s| - 1]);
    }
  }

  lemma StripSignLower(t: string)
    ensures StripSign(AsciiLower(t)) == (StripSign(t).0, AsciiLower(StripSign(t).1))
  {
    if |t| > 0 {
      LowerCharKeeps(t[0]);
      LowerUncons(t);
    }
  }

  lemma StripHexMarkerLower(u: string)
    ensures StripHexMarker(AsciiLower(u)) == AsciiLower(StripHexMarker(u))
  {
    if |u| >= 2 {
      LowerCharKeeps(u[0]);
      LowerCharKeeps(u[1]);
      LowerSlice(u, 2, |u|);
    }
  }

  /** `parseInt(s, 16)` does not see ASCII letter case. */
  lemma ParseIntHexLower(s: string)
    ensures ParseIntHex(AsciiLower(s)) == ParseIntHex(s)
  {
    var t := TrimStart(s);
    var negative, u := StripSign(t).0, StripSign(t).1;
    var v := StripHexMarker(u);
    var digits := HexPrefix(v);
    assert TrimStart(AsciiLower(s)) == AsciiLower(t) by { TrimStartLower(s); }
    assert StripSign(AsciiLower(t)) == (negative, AsciiLower(u)) by { StripSignLower(t); }
    assert StripHexMarker(AsciiLower(u)) == AsciiLower(v) by { StripHexMarkerLower(u); }
    assert HexPrefix(AsciiLower(v)) == AsciiLower(digits) by { HexPrefixLower(v); }
    assert SignedValue(negative, AsciiLower(digits)) == SignedValue(negative, digits) by {
      HexNumberLower(digits);
      assert |AsciiLower(digits)| == |digits|;
    }
  }

  lemma {:induction false} RemoveFirstLower(s: string)
    ensures RemoveFirst(AsciiLower(s), '#') == AsciiLower(RemoveFirst(s, '#'))
  {
    if |s| > 0 {
      var l := AsciiLower(s);
      LowerCharKeeps(s[0]);
      LowerUncons(s);
      if s[0] == '#' {
        assert l[0] == '#';
      } else {
        assert l[0] != '#';
        RemoveFirstLower(s[1..]);
        var rest := RemoveFirst(s[1..], '#');
        assert RemoveFirst(l, '#') == [l[0]] + RemoveFirst(l[1..], '#');
        assert RemoveFirst(s, '#') == [s[0]] + rest;
        assert AsciiLower([s[0]] + rest) == [LowerChar(s[0])] + AsciiLower(rest);
      }
    }
  }

  lemma SubstringLower(s: string, start: nat, end: nat)
    requires start <= end
    ensures Substring(AsciiLower(s), start, end) == AsciiLower(Substring(s, start, end))
  {
    var a := if start <= |s| then start else |s|;
    var b := if end <= |s| then end else |s|;
    LowerSlice(s, a, b);
  }

  /** Hex decoding does not see letter case: `#ECECEC` and `#ececec` give
      the same components, and so does any colour and its lower-case form. */
  lemma DecodeIgnoresCase(color: string, opacity: string)
    ensures DecodeColor(AsciiLower(color)) == DecodeColor(color)
    ensures ColorWithOpacity(AsciiLower(color), opacity) == ColorWithOpacity(color, opacity)
  {
    var hex := RemoveFirst(color, '#');
    RemoveFirstLower(color);
    SubstringLower(hex, 0, 2);
    SubstringLower(hex, 2, 4);
    SubstringLower(hex, 4, 6);
    ParseIntHexLower(Substring(hex, 0, 2));
    ParseIntHexLower(Substring(hex, 2, 4));
    ParseIntHexLower(Substring(hex, 4, 6));
  }

  /** A byte written as two lower-case hex digits. */
  function HexByte(n: nat): (s: string)
    requires n < 256
    ensures |s| == 2 && AllHex(s)
    ensures 16 * HexValue(s[0]) + HexValue(s[1]) == n
  {
    [HexDigitChar(n / 16), HexDigitChar(n % 16)]
  }

  function HexDigitChar(d: nat): (c: char)
    requires d < 16
    ensures IsHexDigit(c) && HexValue(c) == d
  {
    if d < 10 then ('0' as int + d) as char else ('a' as int + d - 10) as char
  }

  /** Round trip: writing three bytes as a `#rrggbb` colour and decoding it
      gives the bytes back. */
  lemma DecodeEncodedColor(r: nat, g: nat, b: nat)
    requires r < 256 && g < 256 && b < 256
    ensures DecodeColor("#" + HexByte(r) + HexByte(g) + HexByte(b)) == Rgb(Finite(r), Finite(g), Finite(b))
  {
    var br, bg, bb := HexByte(r), HexByte(g), HexByte(b);
    var h := br + bg + bb;
    assert "#" + br + bg + bb == "#" + h;
    assert AllHex(h) && PairAt(h, 0) == r && PairAt(h, 2) == g && PairAt(h, 4) == b by {
      assert h[0] == br[0] && h[1] == br[1];
      assert h[2] == bg[0] && h[3] == bg[1];
      assert h[4] == bb[0] && h[5] == bb[1];
    }
    DecodeSixDigits(h);
  }

  /** The full output for an encoded colour: the three bytes in decimal,
      then the opacity as given. */
  lemma ColorWithOpacityOfEncoded(r: nat, g: nat, b: nat, opacity: string)
    requires r < 256 && g < 256 && b < 256
    ensures ColorWithOpacity("#" + HexByte(r) + HexByte(g) + HexByte(b), opacity)
         == "rgba(" + IntToString(r) + ", " + IntToString(g) + ", " + IntToString(b) + ", " + opacity + ")"
  {
    DecodeEncodedColor(r, g, b);
    var x, y, z := IntToString(r), IntToString(g), IntToString(b);
    assert RgbText(Rgb(Finite(r), Finite(g), Finite(b))) == x + ", " + y + ", " + z;
    Regroup("rgba(", x, y, z, opacity);
  }

  lemma Regroup(p: string, x: string, y: string, z: string, o: string)
    ensures p + (x + ", " + y + ", " + z) + (", " + o + ")") == p + x + ", " + y + ", " + z + ", " + o + ")"
  {
  }
}

=== FILE: email.dfy ===
/**
  The contact e-mail helper: how `sendContactEmail` derives the message it
  hands to the mail provider from a validated submission, and how it turns
  a send call that throws into a failure value. The send call is an oracle:
  true when it resolves, false when it throws.
 */
module Email {
  import opened Wrappers
  import opened JsString

  /** A validated contact submission (`ContactEmailData`). */
  datatype ContactData = ContactData(name: string, email: string, subject: Option<string>, message: string)

  /** The arguments of `resend.emails.send`. */
  datatype EmailMessage = EmailMessage(from: string, to: string, replyTo: string, subject: string, html: string)

  /** `{ success: true, data }` or `{ success: false, error }`. */
  datatype SendResult = Sent | Failed

  const Sender: string := "Portfolio Contact <onboarding@resend.dev>"
  const PlaceholderRecipient: string := "your-email@example.com"
  const DefaultSubjectPrefix: string := "New message from "

  /** `process.env.CONTACT_EMAIL || 'your-email@example.com'`: an unset or
      empty variable falls back to the placeholder address. */
  function Recipient(contactEmail: Option<string>): (r: string)
    ensures contactEmail.Some? && contactEmail.value != "" ==> r == contactEmail.value
    ensures contactEmail.None? || contactEmail.value == "" ==> r == PlaceholderRecipient
    ensures r != ""
  {
    if contactEmail.Some? && contactEmail.value != "" then contactEmail.value
    else PlaceholderRecipient
  }

  /** `subject || \`New message from ${name}\``: a missing or empty subject
      gets the default line naming the sender. */
  function SubjectLine(subject: Option<string>, name: string): (r: string)
    ensures subject.Some? && subject.value != "" ==> r == subject.value
    ensures subject.None? || subject.value == "" ==> r == DefaultSubjectPrefix + name
    ensures r != ""
  {
    if subject.Some? && subject.value != "" then subject.value
    else DefaultSubjectPrefix + name
  }

  /** `message.replace(/\n/g, '<br>')` */
  function MessageHtml(message: string): (r: string)
    ensures '\n' !in r
    ensures '\n' !in message ==> r == message
  {
    ReplaceAll(message, '\n', "<br>")
  }

  // The fixed text of the HTML template, between the interpolated values.
  const HtmlOpen: string :=
    "\n        <div style=\"font-family: sans-serif; max-width: 600px; margin: 0 auto;\">\n"
    + "          <h2 style=\"color: #333;\">New Contact Form Submission</h2>\n"
    + "          \n"
    + "          <div style=\"background: #f5f5f5; padding: 20px; border-radius: 8px; margin: 20px 0;\">\n"
    + "            <p style=\"margin: 8px 0;\"><strong>Name:</strong> "
  const AfterName: string := "</p>\n            <p style=\"margin: 8px 0;\"><strong>Email:</strong> "
  const AfterEmail: string := "</p>\n            "
  const SubjectOpen: string := "<p style=\"margin: 8px 0;\"><strong>Subject:</strong> "
  const SubjectClose: string := "</p>"
  const AfterSubject: string :=
    "\n          </div>\n"
    + "          \n"
    + "          <div style=\"margin: 20px 0;\">\n"
    + "            <h3 style=\"color: #555;\">Message:</h3>\n"
    + "            <p style=\"line-height: 1.6; color: #333;\">"
  const HtmlClose: string :=
    "</p>\n          </div>\n"
    + "          \n"
    + "          <hr style=\"border: 1px solid #eee; margin: 30px 0;\">\n"
    + "          \n"
    + "          <p style=\"color: #999; font-size: 14px;\">\n"
    + "            This email was sent from your portfolio contact form.\n"
    + "          </p>\n"
    + "        </div>\n"
    + "      "

  /** The optional subject paragraph: present exactly when the subject is
      a non-empty string. */
  function SubjectParagraph(subject: Option<string>): (r: string)
    ensures r == "" <==> subject.None? || subject.value == ""
    ensures r != "" ==> r == SubjectOpen + subject.value + SubjectClose
  {
    if subject.Some? && subject.value != "" then SubjectOpen + subject.value + SubjectClose
    else ""
  }

  /** The text of the template up to where the subject paragraph goes. */
  function HtmlHead(name: string, email: string): string {
    HtmlOpen + name + AfterName + email + AfterEmail
  }

  /** The text of the template from after the subject paragraph on. */
  function HtmlTail(message: string): string {
    AfterSubject + MessageHtml(message) + HtmlClose
  }

  /** The `html` template of the message. */
  function Html(data: ContactData): string {
    HtmlHead(data.name, data.email) + SubjectParagraph(data.subject) + HtmlTail(data.message)
  }

  /** The message text opens with the name and the address, each after its
      label, and closes with the message, its line breaks as `<br>`, then
      the footer; the subject paragraph, if any, sits between. */
  lemma HtmlShape(data: ContactData)
    ensures HtmlOpen + data.name + AfterName + data.email + AfterEmail <= Html(data)
    ensures var tail := AfterSubject + MessageHtml(data.message) + HtmlClose;
      |tail| <= |Html(data)| && Html(data)[|Html(data)| - |tail|..] == tail
  {
    var head, sub := HtmlHead(data.name, data.email), SubjectParagraph(data.subject);
    var tail := HtmlTail(data.message);
    Ends(head, sub + tail);
    Ends(head + sub, tail);
    assert head + sub + tail == head + (sub + tail);
  }

  lemma Ends(x: string, y: string)
    ensures x <= x + y
    ensures (x + y)[|x|..] == y
  {
  }

  /** The message `sendContactEmail` builds: fixed sender, the configured
      recipient, replies going to the submitter. */
  function ComposeEmail(data: ContactData, contactEmail: Option<string>): (m: EmailMessage)
    ensures m.from == Sender
    ensures m.to == Recipient(contactEmail)
    ensures m.replyTo == data.email
    ensures m.subject == SubjectLine(data.subject, data.name)
    ensures m.html == Html(data)
  {
    EmailMessage(Sender, Recipient(contactEmail), data.email,
                 SubjectLine(data.subject, data.name), Html(data))
  }

  /** `sendContactEmail`: success when the send call on the composed
      message resolves, whatever it resolves with; a throw becomes a failure
      that is returned, never rethrown. */
  function SendContactEmail(data: ContactData, contactEmail: Option<string>,
                            send: EmailMessage -> bool): (r: SendResult)
    ensures r == Sent <==> send(ComposeEmail(data, contactEmail))
    ensures r == Failed <==> !send(ComposeEmail(data, contactEmail))
  {
    if send(ComposeEmail(data, contactEmail)) then Sent else Failed
  }

  /** An empty subject is treated like a missing one: same subject line,
      same HTML, so the whole message is the same. */
  lemma EmptySubjectActsAbsent(data: ContactData, contactEmail: Option<string>)
    ensures ComposeEmail(data.(subject := Some("")), contactEmail)
         == ComposeEmail(data.(subject := None), contactEmail)
  {
  }

  /** A non-empty subject adds exactly the subject paragraph to the HTML of
      the same submission without one, right after the e-mail line. */
  lemma SubjectParagraphInserted(data: ContactData, s: string)
    requires s != ""
    ensures
      var without := Html(data.(subject := None));
      var at := |HtmlHead(data.name, data.email)|;
      at <= |without| &&
      Html(data.(subject := Some(s))) == without[..at] + SubjectOpen + s + SubjectClose + without[at..]
  {
    var head := HtmlHead(data.name, data.email);
    var tail := HtmlTail(data.message);
    var paragraph := SubjectOpen + s + SubjectClose;
    assert Html(data.(subject := None)) == head + tail by {
      assert SubjectParagraph(None) == "";
    }
    assert Html(data.(subject := Some(s))) == head + paragraph + tail by {
      assert SubjectParagraph(Some(s)) == paragraph;
    }
    SplitAt(head, SubjectOpen, s, SubjectClose, tail);
  }

  /** Cutting `head + tail` after `head` and putting `open + s + close` in
      between. */
  lemma SplitAt(head: string, open: string, s: string, close: string, tail: string)
    ensures (head + tail)[..|head|] + open + s + close + (head + tail)[|head|..]
         == head + (open + s + close) + tail
  {
    assert (head + tail)[..|head|] == head;
    assert (head + tail)[|head|..] == tail;
  }

  /** The message body reads as the submitted lines joined with `<br>`. */
  lemma MessageHtmlJoinsLines(message: string)
    ensures MessageHtml(message) == Join(Split(message, '\n'), "<br>")
  {
    ReplaceAllJoinsPieces(message, '\n', "<br>");
  }
}

=== FILE: http.dfy ===
/**
  The JSON responses the route handlers send back: a status code and one of
  the body shapes they use.
 */
module Http {
  import opened Json
  import opened Projects

  datatype Payload =
    | ErrorMessage(error: string)                      // { error }
    | ErrorDetails(error: string, details: seq<Issue>) // { error, details }
    | ProjectsEnvelope(projects: seq<Project>)         // { projects }
    | ProjectArray(projects: seq<Project>)             // the bare array
    | ProjectEnvelope(project: Project)                // { project }
    | Acknowledged(success: bool, message: string)     // { success, message }

  datatype Response = Response(status: int, payload: Payload)

  const Unauthorized: Response := Response(401, ErrorMessage("Unauthorized"))
  const InternalError: Response := Response(500, ErrorMessage("Internal server error"))
}

=== FILE: js_string.dfy ===
/**
  The JavaScript string operations the site relies on, written out over
  `string`. Each `char` stands for one UTF-16 code unit, which is what
  `String.prototype.length`, `trim`, `split` and `substring` count.
 */
module JsString {

  /** White space as `String.prototype.trim` and `parseInt` see it: the
      ECMAScript WhiteSpace and LineTerminator code points. */
  predicate IsWhitespace(c: char) {
    || c == '\t' || c == '\n' || c == '\U{000B}' || c == '\U{000C}' || c == '\r'
    || c == ' ' || c == '\U{00A0}' || c == '\U{1680}'
    || ('\U{2000}' <= c <= '\U{200A}')
    || c == '\U{2028}' || c == '\U{2029}' || c == '\U{202F}' || c == '\U{205F}'
    || c == '\U{3000}' || c == '\U{FEFF}'
  }

  /** No white space at either end (the empty string qualifies). */
  predicate IsTrimmed(s: string) {
    |s| == 0 || (!IsWhitespace(s[0]) && !IsWhitespace(s[|s| - 1]))
  }

  predicate AllWhitespace(s: string) {
    forall k :: 0 <= k < |s| ==> IsWhitespace(s[k])
  }

  /** `s.startsWith(prefix)` */
  predicate StartsWith(s: string, prefix: string) {
    prefix <= s
  }

  /** `s.trimStart()`: drops the longest all-white-space prefix. */
  function TrimStart(s: string): string {
    if |s| > 0 && IsWhitespace(s[0]) then TrimStart(s[1..]) else s
  }

  /** What `trimStart` keeps is a suffix that does not start with white
      space, and what it drops is all white space. */
  lemma {:induction false} TrimStartSuffix(s: string)
    ensures |TrimStart(s)| <= |s| && TrimStart(s) == s[|s| - |TrimStart(s)|..]
    ensures AllWhitespace(s[..|s| - |TrimStart(s)|])
    ensures |TrimStart(s)| == 0 || !IsWhitespace(TrimStart(s)[0])
  {
    if |s| > 0 && IsWhitespace(s[0]) {
      TrimStartSuffix(s[1..]);
      var r := TrimStart(s[1..]);
      assert s[1..][|s| - 1 - |r|..] == s[|s| - |r|..];
      assert s[..|s| - |r|] == [s[0]] + s[1..][..|s| - 1 - |r|];
    }
  }

  /** `s.trimEnd()`: drops the longest all-white-space suffix. */
  function TrimEnd(s: string): (r: string)
    ensures |r| <= |s| && r == s[..|r|]
    ensures AllWhitespace(s[|r|..])
    ensures |r| == 0 || !IsWhitespace(r[|r| - 1])
  {
    if |s| > 0 && IsWhitespace(s[|s| - 1]) then TrimEnd(s[..|s| - 1]) else s
  }

  /** `s.trim()`: white space removed from both ends. */
  function Trim(s: string): (r: string)
    ensures IsTrimmed(r)
    ensures |r| <= |s|
  {
    TrimStartSuffix(s);
    TrimEnd(TrimStart(s))
  }

  /** What `trim` keeps is a slice of its input, and it removes nothing but
      white space. */
  lemma TrimIsSlice(s: string)
    ensures exists i, j :: 0 <= i <= j <= |s| && Trim(s) == s[i..j]
                           && AllWhitespace(s[..i]) && AllWhitespace(s[j..])
  {
    var t := TrimStart(s);
    TrimStartSuffix(s);
    var r := TrimEnd(t);
    var i := |s| - |t|;
    var j := i + |r|;
    assert Trim(s) == r;
    assert r == s[i..j] by {
      assert t == s[i..] && r == t[..|r|];
    }
    assert AllWhitespace(s[..i]);
    assert AllWhitespace(s[j..]) by {
      assert s[j..] == t[|r|..];
    }
    assert 0 <= i <= j <= |s| && Trim(s) == s[i..j] && AllWhitespace(s[..i]) && AllWhitespace(s[j..]);
  }

  /** A character that is not in `s` is not in `s.trim()`. */
  lemma TrimKeepsOut(s: string, c: char)
    requires c !in s
    ensures c !in Trim(s)
  {
    TrimIsSlice(s);
    var i, j :| 0 <= i <= j <= |s| && Trim(s) == s[i..j];
    assert forall x :: x in s[i..j] ==> x in s;
  }

  /** Trimming leaves an already trimmed string alone. */
  lemma TrimOfTrimmed(s: string)
    requires IsTrimmed(s)
    ensures Trim(s) == s
  {
  }

  /** A leading white-space character does not survive `trim`. */
  lemma TrimDropsLeadingWhitespace(c: char, s: string)
    requires IsWhitespace(c)
    ensures Trim([c] + s) == Trim(s)
  {
    assert ([c] + s)[1..] == s;
  }

  /** `s.split(sep)` for a one-character separator. */
  function Split(s: string, sep: char): (r: seq<string>)
    ensures |r| >= 1
    ensures forall k :: 0 <= k < |r| ==> sep !in r[k]
  {
    if |s| == 0 then [""]
    else
      var rest := Split(s[1..], sep);
      if s[0] == sep then [""] + rest
      else [[s[0]] + rest[0]] + rest[1..]
  }

  /** The combined length of the pieces. */
  function TotalLength(parts: seq<string>): nat {
    if |parts| == 0 then 0 else |parts[0]| + TotalLength(parts[1..])
  }

  /** `parts.join(sep)` */
  function Join(parts: seq<string>, sep: string): string
  {
    if |parts| == 0 then ""
    else if |parts| == 1 then parts[0]
    else parts[0] + sep + Join(parts[1..], sep)
  }

  /** The joined text holds the pieces in order with one separator between
      neighbours, none before the first or after the last. */
  lemma {:induction false} JoinShape(parts: seq<string>, sep: string)
    requires |parts| > 0
    ensures |Join(parts, sep)| == TotalLength(parts) + (|parts| - 1) * |sep|
    ensures Join(parts, sep)[..|parts[0]|] == parts[0]
    ensures |parts[|parts| - 1]| <= |Join(parts, sep)|
    ensures Join(parts, sep)[|Join(parts, sep)| - |parts[|parts| - 1]|..] == parts[|parts| - 1]
  {
    if |parts| > 1 {
      var rest := Join(parts[1..], sep);
      JoinShape(parts[1..], sep);
      var r := parts[0] + sep + rest;
      assert Join(parts, sep) == r;
      assert parts[1..][|parts[1..]| - 1] == parts[|parts| - 1];
      assert r[|r| - |rest|..] == rest;
      assert (|parts[1..]| - 1) * |sep| + |sep| == (|parts| - 1) * |sep|;
    }
  }

  /** Text with no separator in it splits into one piece, itself, glued to
      the first piece of whatever follows. */
  lemma {:induction false} SplitPrefix(a: string, s: string, sep: char)
    requires sep !in a
    ensures Split(a + s, sep) == [a + Split(s, sep)[0]] + Split(s, sep)[1..]
  {
    if |a| > 0 {
      assert (a + s)[0] == a[0] && (a + s)[1..] == a[1..] + s;
      SplitPrefix(a[1..], s, sep);
      assert [a[0]] + (a[1..] + Split(s, sep)[0]) == a + Split(s, sep)[0];
    } else {
      var parts := Split(s, sep);
      assert a + s == s && a + parts[0] == parts[0];
      assert parts == [parts[0]] + parts[1..];
    }
  }

  /** Text without the separator is a single piece. */
  lemma SplitWithoutSeparator(s: string, sep: char)
    requires sep !in s
    ensures Split(s, sep) == [s]
  {
    SplitPrefix(s, "", sep);
    assert s + "" == s;
    assert Split("", sep) == [""];
  }

  /** A separator cuts the text into the pieces of either side. */
  lemma {:induction false} SplitAppend(a: string, b: string, sep: char)
    ensures Split(a + [sep] + b, sep) == Split(a, sep) + Split(b, sep)
  {
    if |a| == 0 {
      assert a + [sep] + b == [sep] + b;
      assert ([sep] + b)[1..] == b;
    } else {
      var t := a[1..] + [sep] + b;
      assert a + [sep] + b == [a[0]] + t;
      assert a == [a[0]] + a[1..];
      SplitAppend(a[1..], b, sep);
      SplitCons(a[0], t, sep);
      SplitCons(a[0], a[1..], sep);
      SplitGlue(a[0], sep, Split(a[1..], sep), Split(b, sep));
    }
  }

  /** One step of `split`: the first character either ends the first
      piece or joins it. */
  lemma SplitCons(c: char, t: string, sep: char)
    ensures Split([c] + t, sep)
         == if c == sep then [""] + Split(t, sep) else [[c] + Split(t, sep)[0]] + Split(t, sep)[1..]
  {
    assert ([c] + t)[0] == c && ([c] + t)[1..] == t;
  }

  lemma SplitGlue(c: char, sep: char, pa: seq<string>, pb: seq<string>)
    requires |pa| >= 1
    ensures (if c == sep then [""] + (pa + pb) else [[c] + (pa + pb)[0]] + (pa + pb)[1..])
         == (if c == sep then [""] + pa else [[c] + pa[0]] + pa[1..]) + pb
  {
    if c != sep {
      assert (pa + pb)[0] == pa[0] && (pa + pb)[1..] == pa[1..] + pb;
    }
  }

  /** Split is undone by joining with the same separator. */
  lemma {:induction false} JoinSplit(s: string, sep: char)
    ensures Join(Split(s, sep), [sep]) == s
  {
    if |s| > 0 {
      var rest := Split(s[1..], sep);
      JoinSplit(s[1..], sep);
      if s[0] == sep {
        assert Split(s, sep) == [""] + rest;
        assert ([""] + rest)[1..] == rest;
        assert s == [sep] + s[1..];
      } else {
        var r := Split(s, sep);
        assert r == [[s[0]] + rest[0]] + rest[1..];
        if |rest| == 1 {
          assert s == [s[0]] + s[1..];
        } else {
          assert r[1..] == rest[1..];
          assert Join(rest, [sep]) == rest[0] + [sep] + Join(rest[1..], [sep]);
          assert s == [s[0]] + s[1..];
        }
      }
    }
  }

  /** `s.replace(/c/g, repl)`: every occurrence of `c` becomes `repl`. */
  function ReplaceAll(s: string, c: char, repl: string): (r: string)
    ensures c !in repl ==> c !in r
    ensures c !in s ==> r == s
  {
    if |s| == 0 then ""
    else (if s[0] == c then repl else [s[0]]) + ReplaceAll(s[1..], c, repl)
  }

  /** Joining the first piece onto a character put in front of it. */
  lemma JoinPrepend(x: char, parts: seq<string>, sep: string)
    requires |parts| >= 1
    ensures Join([[x] + parts[0]] + parts[1..], sep) == [x] + Join(parts, sep)
  {
    var q := [[x] + parts[0]] + parts[1..];
    assert q[0] == [x] + parts[0] && q[1..] == parts[1..];
    if |parts| >= 2 {
      assert Join(q, sep) == ([x] + parts[0]) + sep + Join(parts[1..], sep);
    }
  }

  /** Replacing every `c` is the same as splitting at `c` and joining the
      pieces with the replacement. */
  lemma {:induction false} ReplaceAllJoinsPieces(s: string, c: char, repl: string)
    ensures ReplaceAll(s, c, repl) == Join(Split(s, c), repl)
  {
    if |s| > 0 {
      ReplaceAllJoinsPieces(s[1..], c, repl);
      var parts := Split(s[1..], c);
      if s[0] == c {
        assert Split(s, c) == [""] + parts;
        assert ([""] + parts)[1..] == parts;
      } else {
        assert Split(s, c) == [[s[0]] + parts[0]] + parts[1..];
        JoinPrepend(s[0], parts, repl);
      }
    }
  }

  function CountOf(s: string, c: char): nat
  {
    if |s| == 0 then 0 else (if s[0] == c then 1 else 0) + CountOf(s[1..], c)
  }

  /** `s.indexOf(c)` for a character that occurs in `s`. */
  function IndexOf(s: string, c: char): (i: nat)
    requires c in s
    ensures i < |s| && s[i] == c && c !in s[..i]
  {
    if s[0] == c then 0
    else
      var j := IndexOf(s[1..], c);
      assert s[..j + 1] == [s[0]] + s[1..][..j];
      j + 1
  }

  /** `s.replace(c, '')` with a string pattern: only the first occurrence of
      `c` is removed, and every other character stays where it was. */
  function RemoveFirst(s: string, c: char): (r: string)
    ensures c !in s ==> r == s
    ensures |s| > 0 && s[0] == c ==> r == s[1..]
    ensures c in s ==> r == s[..IndexOf(s, c)] + s[IndexOf(s, c) + 1..]
    ensures c in s ==> |r| == |s| - 1 && CountOf(r, c) == CountOf(s, c) - 1
  {
    if |s| == 0 then ""
    else if s[0] == c then s[1..]
    else
      var t := RemoveFirst(s[1..], c);
      RemoveFirstStep(s, c, t);
      [s[0]] + t
  }

  /** Removing the first `c` after a different leading character keeps that
      character in front. */
  lemma RemoveFirstStep(s: string, c: char, t: string)
    requires |s| > 0 && s[0] != c
    requires c !in s[1..] ==> t == s[1..]
    requires c in s[1..] ==> t == s[1..][..IndexOf(s[1..], c)] + s[1..][IndexOf(s[1..], c) + 1..]
    requires c in s[1..] ==> |t| == |s| - 2 && CountOf(t, c) == CountOf(s[1..], c) - 1
    ensures c !in s ==> [s[0]] + t == s
    ensures c in s ==> [s[0]] + t == s[..IndexOf(s, c)] + s[IndexOf(s, c) + 1..]
    ensures c in s ==> |[s[0]] + t| == |s| - 1 && CountOf([s[0]] + t, c) == CountOf(s, c) - 1
  {
    assert s == [s[0]] + s[1..];
    assert ([s[0]] + t)[1..] == t;
    if c in s {
      assert c in s[1..];
      var j := IndexOf(s[1..], c);
      assert IndexOf(s, c) == j + 1;
      assert s[..j + 1] == [s[0]] + s[1..][..j];
      assert s[j + 2..] == s[1..][j + 1..];
    }
  }

  /** A later occurrence survives: only the first `#` of `a#b#` goes. */
  lemma RemoveFirstKeepsLater()
    ensures RemoveFirst("a#b#", '#') == "ab#"
  {
    assert IndexOf("a#b#", '#') == 1;
  }

  /** `s.substring(start, end)` for `start <= end`, with both indices
      clamped to the length of `s`. */
  function Substring(s: string, start: nat, end: nat): (r: string)
    requires start <= end
    ensures |r| <= end - start
    ensures end <= |s| ==> r == s[start..end]
  {
    var a := if start <= |s| then start else |s|;
    var b := if end <= |s| then end else |s|;
    s[a..b]
  }

  function DigitChar(d: nat): char
    requires d < 10
  {
    "0123456789"[d]
  }

  /** Decimal rendering of a non-negative integer. */
  function NatToString(n: nat): (r: string)
    ensures |r| >= 1
    ensures forall k :: 0 <= k < |r| ==> '0' <= r[k] <= '9'
  {
    if n < 10 then [DigitChar(n)] else NatToString(n / 10) + [DigitChar(n % 10)]
  }

  /** How a JavaScript number that holds an integer of magnitude below
      10^21 is rendered in a template literal (from 10^21 on JavaScript uses
      exponent form); `-0` is rendered as `0`, which an `int` cannot tell
      apart. */
  function IntToString(n: int): (r: string)
    ensures |r| >= 1
    ensures (r[0] == '-') <==> n < 0
  {
    if n < 0 then "-" + NatToString(-n) else NatToString(n)
  }

  /** The decimal digits read back as a number. */
  function DecimalValue(s: string): int
    requires forall k :: 0 <= k < |s| ==> '0' <= s[k] <= '9'
  {
    if |s| == 0 then 0
    else 10 * DecimalValue(s[..|s| - 1]) + (s[|s| - 1] as int - '0' as int)
  }

  /** Decimal rendering loses nothing: the digits read back as `n`. */
  lemma {:induction false} NatToStringValue(n: nat)
    ensures DecimalValue(NatToString(n)) == n
  {
    var r := NatToString(n);
    if n >= 10 {
      NatToStringValue(n / 10);
      assert r[..|r| - 1] == NatToString(n / 10);
    }
  }

  lemma NatToStringInjective(a: nat, b: nat)
    requires NatToString(a) == NatToString(b)
    ensures a == b
  {
    NatToStringValue(a);
    NatToStringValue(b);
  }

  /** Different integers render differently. */
  lemma IntToStringInjective(m: int, n: int)
    requires IntToString(m) == IntToString(n)
    ensures m == n
  {
    var r := IntToString(m);
    if m < 0 {
      assert n < 0;
      assert NatToString(-m) == r[1..] == NatToString(-n);
      NatToStringInjective(-m, -n);
    } else {
      assert n >= 0;
      NatToStringInjective(m, n);
    }
  }
}

=== FILE: json.dfy ===
/**
  Parsed JSON request bodies and the zod-style validation vocabulary the
  route handlers share.
 */
module Json {
  import opened Wrappers

  /** A JSON value as `request.json()` yields it. Numbers are kept as
      integers: no handler looks at a number's value. */
  datatype Json =
    | JNull
    | JBool(b: bool)
    | JNumber(n: int)
    | JString(s: string)
    | JArray(items: seq<Json>)
    | JObject(fields: map<string, Json>)

  /** What the transport hands a handler: text that is not JSON makes
      `request.json()` throw. */
  datatype RequestBody = Malformed | Parsed(json: Json)

  /** One schema violation, named by the top-level key it concerns; the
      empty key stands for the body itself. */
  datatype Issue = Issue(field: string)

  /** The outcome of `schema.parse`: the parsed value, or the issues that
      make up the thrown `ZodError`. */
  datatype Checked<+T> = Valid(value: T) | Invalid(issues: seq<Issue>)

  /** A value that zod's `.optional().nullable()` admits: the key may be
      missing, hold `null`, or hold a value. */
  datatype Nullish<+T> = Absent | Null | Given(value: T)

  /** The keys of an object schema whose rule `ok` rejects, in schema
      order; zod reports one issue for each. */
  function FailingKeys<K(==,!new)>(keys: seq<K>, ok: K -> bool): (r: seq<K>)
    ensures forall key :: key in r <==> key in keys && !ok(key)
    ensures |r| <= |keys|
  {
    if |keys| == 0 then []
    else
      var rest := FailingKeys(keys[1..], ok);
      assert forall key :: key in keys <==> key == keys[0] || key in keys[1..];
      (if ok(keys[0]) then [] else [keys[0]]) + rest
  }

  /** One issue per key, named as the body spells it. */
  function IssuesAt<K>(keys: seq<K>, name: K -> string): (r: seq<Issue>)
    ensures |r| == |keys|
    ensures forall k :: 0 <= k < |keys| ==> r[k] == Issue(name(keys[k]))
  {
    seq(|keys|, k requires 0 <= k < |keys| => Issue(name(keys[k])))
  }

  /** When names tell keys apart, a key is named in the issues exactly when
      it is among the keys they were made from. */
  lemma IssuesAtNames<K>(keys: seq<K>, name: K -> string)
    requires forall a, b :: name(a) == name(b) ==> a == b
    ensures forall k :: Issue(name(k)) in IssuesAt(keys, name) <==> k in keys
  {
    var issues := IssuesAt(keys, name);
    forall k ensures Issue(name(k)) in issues <==> k in keys {
      if Issue(name(k)) in issues {
        var i :| 0 <= i < |issues| && issues[i] == Issue(name(k));
      }
      if k in keys {
        var i :| 0 <= i < |keys| && keys[i] == k;
        assert issues[i] == Issue(name(k));
      }
    }
  }

  /** With every key of the type listed and names that tell keys apart, a
      key is named in the issues exactly when its rule rejects. */
  lemma FailingKeysNamed<K(!new)>(keys: seq<K>, ok: K -> bool, name: K -> string)
    requires forall k :: k in keys
    requires forall a, b :: name(a) == name(b) ==> a == b
    ensures forall k :: Issue(name(k)) in IssuesAt(FailingKeys(keys, ok), name) <==> !ok(k)
  {
    IssuesAtNames(FailingKeys(keys, ok), name);
  }

  /** The value zod yields for a key declared `.optional().nullable()`. */
  function NullishAt(fields: map<string, Json>, key: string): (r: Nullish<string>)
    requires key !in fields || fields[key].JNull? || fields[key].JString?
    ensures r.Absent? <==> key !in fields
    ensures r.Null? <==> key in fields && fields[key].JNull?
    ensures r.Given? ==> key in fields && fields[key] == JString(r.value)
  {
    if key !in fields then Absent
    else if fields[key].JNull? then Null
    else Given(fields[key].s)
  }

  predicate AllStrings(items: seq<Json>) {
    forall k :: 0 <= k < |items| ==> items[k].JString?
  }

  function Strings(items: seq<Json>): (r: seq<string>)
    requires AllStrings(items)
    ensures |r| == |items|
    ensures forall k :: 0 <= k < |items| ==> items[k] == JString(r[k])
  {
    seq(|items|, k requires 0 <= k < |items| => items[k].s)
  }


  /** The JSON array of strings that `JSON.stringify` writes for `ss`. */
  function JsonStrings(ss: seq<string>): (r: seq<Json>)
    ensures |r| == |ss| && AllStrings(r)
    ensures forall k :: 0 <= k < |ss| ==> r[k] == JString(ss[k])
  {
    seq(|ss|, k requires 0 <= k < |ss| => JString(ss[k]))
  }

  /** Reading the strings back out of such an array gives `ss` again. */
  lemma StringsOfJsonStrings(ss: seq<string>)
    ensures Strings(JsonStrings(ss)) == ss
  {
  }
}

=== FILE: middleware.dfy ===
/**
  The admin route guard: from the request path and whether a valid session
  cookie came with it, decide to redirect or to let the request through.
 */
module Middleware {
  import opened JsString

  const AdminPrefix: string := "/admin"
  const LoginPath: string := "/admin/login"
  const DashboardPath: string := "/admin"

  datatype Decision = Redirect(target: string) | Next

  /** A path the guard protects: it starts with "/admin" (a plain prefix
      test, so "/adminx" counts) and is not the login page itself. */
  predicate Guarded(path: string)
    ensures Guarded(path) ==> path == DashboardPath || |path| > |AdminPrefix|
    ensures StartsWith(path, AdminPrefix + "/") && path != LoginPath ==> Guarded(path)
    ensures Guarded(path) ==> path[..6] == "/admin"
  {
    StartsWith(path, AdminPrefix) && path != LoginPath
  }

  /** `middleware`: a guarded path without a session goes to the login
      page; the login page with a session goes to the dashboard; every
      other request passes. */
  function Decide(path: string, hasSession: bool): (d: Decision)
    ensures Guarded(path) && !hasSession <==> d == Redirect(LoginPath)
    ensures path == LoginPath && hasSession <==> d == Redirect(DashboardPath)
    ensures d.Redirect? ==> StartsWith(path, AdminPrefix)
    ensures !StartsWith(path, AdminPrefix) ==> d == Next
  {
    if Guarded(path) && !hasSession then Redirect(LoginPath)
    else if path == LoginPath && hasSession then Redirect(DashboardPath)
    else Next
  }

  /** The cases one by one, as the guard is meant to behave. */
  lemma DecideCases(path: string, hasSession: bool)
    ensures Guarded(path) && hasSession ==> Decide(path, hasSession) == Next
    ensures Decide(LoginPath, false) == Next
    ensures Decide("/adminx", false) == Redirect(LoginPath)
    ensures Decide("/admin/projects", false) == Redirect(LoginPath)
    ensures Decide("/projects", hasSession) == Next
  {
    assert StartsWith("/adminx", AdminPrefix) && "/adminx" != LoginPath by {
      assert "/adminx"[..6] == AdminPrefix;
    }
    assert StartsWith("/admin/projects", AdminPrefix) && "/admin/projects" != LoginPath by {
      assert "/admin/projects"[..6] == AdminPrefix;
      assert "/admin/projects"[7] != LoginPath[7];
    }
    assert !StartsWith("/projects", AdminPrefix) by {
      assert "/projects"[1] != AdminPrefix[1];
    }
  }

  /** No redirect loop: following a redirect with the same session state
      lands on a request that passes. */
  lemma NoRedirectLoop(path: string, hasSession: bool)
    ensures Decide(path, hasSession).Redirect? ==>
      Decide(Decide(path, hasSession).target, hasSession) == Next
  {
    assert LoginPath[..|AdminPrefix|] == AdminPrefix;
    assert DashboardPath != LoginPath;
  }
}

=== FILE: project.dfy ===
/**
  The project record as the store holds it, and the orders in which the two
  listing endpoints return it.
 */
module Projects {
  import opened Wrappers
  import opened Json

  /** A stored project. `createdAt`/`updatedAt` are instants as integers
      (milliseconds); a missing link is `None` (the database's `null`). */
  datatype Project = Project(
    id: string,
    title: string,
    description: string,
    content: string,
    imageUrl: string,
    demoUrl: Option<string>,
    githubUrl: Option<string>,
    tags: seq<string>,
    featured: bool,
    createdAt: int,
    updatedAt: int)

  predicate UniqueIds(store: seq<Project>) {
    forall i, j :: 0 <= i < j < |store| ==> store[i].id != store[j].id
  }

  /** A lexicographic sort key: `rank` first, then `createdAt`, both
      descending. */
  datatype SortKey = SortKey(rank: int, createdAt: int)

  /** `a` may be listed before `b` when both keys are sorted descending. */
  predicate Precedes(a: SortKey, b: SortKey) {
    a.rank > b.rank || (a.rank == b.rank && a.createdAt >= b.createdAt)
  }

  /** `orderBy: { createdAt: 'desc' }` */
  function AdminKey(p: Project): SortKey {
    SortKey(0, p.createdAt)
  }

  /** `orderBy: [{ featured: 'desc' }, { createdAt: 'desc' }]`; `true` sorts
      above `false`. */
  function PublicKey(p: Project): SortKey {
    SortKey(if p.featured then 1 else 0, p.createdAt)
  }

  predicate OrderedBy(s: seq<Project>, key: Project -> SortKey) {
    forall i, j :: 0 <= i < j < |s| ==> Precedes(key(s[i]), key(s[j]))
  }

  /** Puts `p` in front of the first element it may precede. */
  function Insert(p: Project, s: seq<Project>, key: Project -> SortKey): (r: seq<Project>)
    requires OrderedBy(s, key)
    ensures OrderedBy(r, key)
    ensures multiset(r) == multiset(s) + multiset{p}
  {
    if |s| == 0 then [p]
    else if Precedes(key(p), key(s[0])) then
      ConsOrdered(p, s, key);
      [p] + s
    else
      var tail := Insert(p, s[1..], key);
      assert s == [s[0]] + s[1..];
      LeadsInserted(s[0], p, s[1..], tail, key);
      ConsOrdered(s[0], tail, key);
      [s[0]] + tail
  }

  /** An element that may precede every element of an ordered sequence
      can go in front of it. */
  lemma ConsOrdered(x: Project, t: seq<Project>, key: Project -> SortKey)
    requires OrderedBy(t, key)
    requires |t| == 0 || Precedes(key(x), key(t[0]))
    ensures OrderedBy([x] + t, key)
  {
    var r := [x] + t;
    forall i, j | 0 <= i < j < |r| ensures Precedes(key(r[i]), key(r[j])) {
      if i == 0 && j > 1 {
        assert r[1] == t[0] && r[j] == t[j - 1];
        assert Precedes(key(t[0]), key(t[j - 1]));
      }
    }
  }

  /** The head of a sorted sequence, which `p` may not precede, may still
      precede the first element once `p` is inserted into the rest. */
  lemma LeadsInserted(x: Project, p: Project, rest: seq<Project>, tail: seq<Project>, key: Project -> SortKey)
    requires OrderedBy([x] + rest, key)
    requires !Precedes(key(p), key(x))
    requires multiset(tail) == multiset(rest) + multiset{p}
    ensures |tail| == 0 || Precedes(key(x), key(tail[0]))
  {
    if |tail| > 0 {
      var q := tail[0];
      assert q in multiset(tail);
      if q != p {
        assert q in multiset(rest);
        var k :| 0 <= k < |rest| && rest[k] == q;
        assert ([x] + rest)[0] == x && ([x] + rest)[k + 1] == q;
      }
    }
  }

  /** The store's `findMany` with an `orderBy`: the same projects, none
      dropped or added, in descending key order. Projects with equal keys
      come out in some order; no particular tie-break is promised. */
  function SortDescending(s: seq<Project>, key: Project -> SortKey): (r: seq<Project>)
    ensures OrderedBy(r, key)
    ensures multiset(r) == multiset(s)
  {
    if |s| == 0 then []
    else
      assert s == [s[0]] + s[1..];
      Insert(s[0], SortDescending(s[1..], key), key)
  }

  /** Every featured project comes before every project that is not. */
  predicate FeaturedFirst(s: seq<Project>) {
    forall i, j :: 0 <= i < j < |s| && s[j].featured ==> s[i].featured
  }

  /** Within each featured group, newer projects come first. */
  predicate NewestFirstWithinGroup(s: seq<Project>) {
    forall i, j :: 0 <= i < j < |s| && s[i].featured == s[j].featured ==> s[i].createdAt >= s[j].createdAt
  }

  predicate NewestFirst(s: seq<Project>) {
    forall i, j :: 0 <= i < j < |s| ==> s[i].createdAt >= s[j].createdAt
  }

  /** The public order is exactly "featured first, then newest first". */
  lemma PublicOrderMeaning(s: seq<Project>)
    ensures OrderedBy(s, PublicKey) <==> FeaturedFirst(s) && NewestFirstWithinGroup(s)
  {
    if FeaturedFirst(s) && NewestFirstWithinGroup(s) {
      forall i, j | 0 <= i < j < |s|
        ensures Precedes(PublicKey(s[i]), PublicKey(s[j]))
      {
      }
    }
  }

  /** The admin order is exactly "newest first". */
  lemma AdminOrderMeaning(s: seq<Project>)
    ensures OrderedBy(s, AdminKey) <==> NewestFirst(s)
  {
  }
}

=== FILE: project_api.dfy ===
/**
  The project endpoints: the admin listing and create handlers, guarded by
  the session, and the public listing. The store is a sequence of projects;
  whether the database call fails, the id it assigns and the current time
  are parameters, and so is zod's URL check.
 */
module ProjectApi {
  import opened Wrappers
  import opened Json
  import opened Projects
  import opened Http

  /** The keys of `projectSchema`, in declaration order. */
  datatype ProjectKey = Title | Description | Content | ImageUrl | DemoUrl | GithubUrl | Tags | Featured

  const ProjectKeys: seq<ProjectKey> :=
    [Title, Description, Content, ImageUrl, DemoUrl, GithubUrl, Tags, Featured]

  function KeyName(k: ProjectKey): string {
    match k
    case Title => "title"
    case Description => "description"
    case Content => "content"
    case ImageUrl => "imageUrl"
    case DemoUrl => "demoUrl"
    case GithubUrl => "githubUrl"
    case Tags => "tags"
    case Featured => "featured"
  }

  /** The value `projectSchema.parse` yields. */
  datatype ProjectInput = ProjectInput(
    title: string,
    description: string,
    content: string,
    imageUrl: string,
    demoUrl: Nullish<string>,
    githubUrl: Nullish<string>,
    tags: seq<string>,
    featured: Option<bool>)

  /** What the handler returns, together with the store after the call. */
  datatype Outcome = Outcome(response: Response, store: seq<Project>)

  /** The schema's rule for one key, stated key by key. */
  predicate ProjectFieldOk(fields: map<string, Json>, k: ProjectKey, isUrl: string -> bool) {
    var key := KeyName(k);
    match k
    case Title | Description | Content =>
      key in fields && fields[key].JString? && |fields[key].s| >= 1
    case ImageUrl =>
      key in fields && fields[key].JString? && isUrl(fields[key].s)
    case DemoUrl | GithubUrl =>
      key !in fields || fields[key].JNull? || (fields[key].JString? && isUrl(fields[key].s))
    case Tags =>
      key in fields && fields[key].JArray? && AllStrings(fields[key].items)
    case Featured =>
      key !in fields || fields[key].JBool?
  }

  /** A body the schema accepts: an object whose every schema key is fine.
      Keys outside the schema are ignored. */
  predicate AcceptsProject(body: Json, isUrl: string -> bool) {
    body.JObject? && forall k :: ProjectFieldOk(body.fields, k, isUrl)
  }

  /** The fields of a body the schema accepts, read as zod passes them on:
      unchanged, with a missing optional key kept apart from `null`. */
  function ReadProject(f: map<string, Json>, isUrl: string -> bool): (r: ProjectInput)
    requires forall k :: ProjectFieldOk(f, k, isUrl)
    ensures "title" in f && f["title"] == JString(r.title)
    ensures "description" in f && f["description"] == JString(r.description)
    ensures "content" in f && f["content"] == JString(r.content)
    ensures "imageUrl" in f && f["imageUrl"] == JString(r.imageUrl)
    ensures "tags" in f && f["tags"] == JArray(JsonStrings(r.tags))
    ensures r.featured.Some? <==> "featured" in f
    ensures r.featured.Some? ==> f["featured"] == JBool(r.featured.value)
    ensures r.demoUrl.Absent? <==> "demoUrl" !in f
    ensures r.demoUrl.Null? <==> "demoUrl" in f && f["demoUrl"].JNull?
    ensures r.demoUrl.Given? ==> f["demoUrl"] == JString(r.demoUrl.value)
    ensures r.githubUrl.Absent? <==> "githubUrl" !in f
    ensures r.githubUrl.Null? <==> "githubUrl" in f && f["githubUrl"].JNull?
    ensures r.githubUrl.Given? ==> f["githubUrl"] == JString(r.githubUrl.value)
  {
    assert ProjectFieldOk(f, Title, isUrl) && ProjectFieldOk(f, Description, isUrl);
    assert ProjectFieldOk(f, Content, isUrl) && ProjectFieldOk(f, ImageUrl, isUrl);
    assert ProjectFieldOk(f, DemoUrl, isUrl) && ProjectFieldOk(f, GithubUrl, isUrl);
    assert ProjectFieldOk(f, Tags, isUrl) && ProjectFieldOk(f, Featured, isUrl);
    var tags := Strings(f["tags"].items);
    assert f["tags"].items == JsonStrings(tags);
    ProjectInput(
      f["title"].s, f["description"].s, f["content"].s, f["imageUrl"].s,
      NullishAt(f, "demoUrl"), NullishAt(f, "githubUrl"), tags,
      if "featured" in f then Some(f["featured"].b) else None)
  }

  /** `projectSchema.parse(body)`. It accepts exactly the bodies the schema
      describes and then yields their fields as they are; otherwise it
      reports an issue for the body when it is not an object, or one issue
      per failing key. */
  function ParseProject(body: Json, isUrl: string -> bool): (r: Checked<ProjectInput>)
    ensures r.Valid? <==> AcceptsProject(body, isUrl)
    ensures r.Valid? ==> r.value == ReadProject(body.fields, isUrl)
    ensures r.Invalid? && !body.JObject? ==> r.issues == [Issue("")]
    ensures r.Invalid? && body.JObject? ==>
      |r.issues| > 0 &&
      forall k :: Issue(KeyName(k)) in r.issues <==> !ProjectFieldOk(body.fields, k, isUrl)
  {
    if !body.JObject? then Invalid([Issue("")])
    else
      var f := body.fields;
      var ok := k => ProjectFieldOk(f, k, isUrl);
      var bad := FailingKeys(ProjectKeys, ok);
      if |bad| > 0 then
        var issues := IssuesAt(bad, KeyName);
        IssuesNameFailingKeys(f, isUrl, ok, bad, issues);
        Invalid(issues)
      else
        NoFailingKey(f, isUrl, ok, bad);
        Valid(ReadProject(f, isUrl))
  }

  lemma NoFailingKey(f: map<string, Json>, isUrl: string -> bool, ok: ProjectKey -> bool, bad: seq<ProjectKey>)
    requires forall k :: ok(k) == ProjectFieldOk(f, k, isUrl)
    requires bad == FailingKeys(ProjectKeys, ok)
    requires |bad| == 0
    ensures forall k :: ProjectFieldOk(f, k, isUrl)
  {
    EveryKeyListed();
  }

  lemma IssuesNameFailingKeys(f: map<string, Json>, isUrl: string -> bool, ok: ProjectKey -> bool,
                                 bad: seq<ProjectKey>, issues: seq<Issue>)
    requires forall k :: ok(k) == ProjectFieldOk(f, k, isUrl)
    requires bad == FailingKeys(ProjectKeys, ok)
    requires issues == IssuesAt(bad, KeyName)
    ensures forall k :: Issue(KeyName(k)) in issues <==> !ProjectFieldOk(f, k, isUrl)
  {
    EveryKeyListed();
    KeyNameInjective();
    FailingKeysNamed(ProjectKeys, ok, KeyName);
  }

  lemma EveryKeyListed()
    ensures forall k :: k in ProjectKeys
  {
    forall k ensures k in ProjectKeys {
      var i := match k
        case Title => 0 case Description => 1 case Content => 2 case ImageUrl => 3
        case DemoUrl => 4 case GithubUrl => 5 case Tags => 6 case Featured => 7;
      assert ProjectKeys[i] == k;
    }
  }

  lemma KeyNameInjective()
    ensures forall a, b :: KeyName(a) == KeyName(b) ==> a == b
  {
  }

  /** JavaScript's `value || null` on a parsed optional URL: a missing key,
      `null` and the empty string all become `null`. */
  function OrNull(v: Nullish<string>): (r: Option<string>)
    ensures r.Some? <==> v.Given? && v.value != ""
    ensures r.Some? ==> r.value == v.value
  {
    match v
    case Given(s) => if s == "" then None else Some(s)
    case _ => None
  }

  /** The record handed to `prisma.project.create`. */
  function NewProject(input: ProjectInput, id: string, now: int): (p: Project)
    ensures p.id == id && p.createdAt == now && p.updatedAt == now
    ensures p.title == input.title && p.description == input.description
    ensures p.content == input.content && p.imageUrl == input.imageUrl
    ensures p.tags == input.tags
    ensures p.featured <==> input.featured == Some(true)
    ensures p.demoUrl == OrNull(input.demoUrl) && p.githubUrl == OrNull(input.githubUrl)
  {
    Project(id, input.title, input.description, input.content, input.imageUrl,
            OrNull(input.demoUrl), OrNull(input.githubUrl), input.tags,
            input.featured.GetOr(false), now, now)
  }

  /** `GET /api/admin/projects`. Without a session it answers 401 and does
      not touch the store; otherwise every stored project, newest first, or
      500 when the store fails. */
  function AdminList(hasSession: bool, store: seq<Project>, storeFails: bool): (r: Response)
    ensures !hasSession ==> r == Unauthorized
    ensures hasSession && storeFails ==> r == InternalError
    ensures r.status == 200 <==> hasSession && !storeFails
    ensures r.status == 200 ==>
      && r.payload.ProjectsEnvelope?
      && multiset(r.payload.projects) == multiset(store)
      && NewestFirst(r.payload.projects)
  {
    if !hasSession then Unauthorized
    else if storeFails then InternalError
    else
      var sorted := SortDescending(store, AdminKey);
      AdminOrderMeaning(sorted);
      Response(200, ProjectsEnvelope(sorted))
  }

  /** `POST /api/admin/projects`. The session is checked before the body is
      read; a body that is not JSON or a failing store gives 500, a schema
      violation 400 with the issues, and success 201 with the new record,
      which is appended to the store. Only success changes the store. */
  function Create(hasSession: bool, body: RequestBody, store: seq<Project>, isUrl: string -> bool,
                  id: string, now: int, storeFails: bool): (r: Outcome)
    ensures !hasSession ==> r == Outcome(Unauthorized, store)
    ensures hasSession && body.Malformed? ==> r == Outcome(InternalError, store)
    ensures hasSession && body.Parsed? && !AcceptsProject(body.json, isUrl) ==>
      r.store == store && r.response.status == 400
      && r.response.payload.ErrorDetails? && r.response.payload.error == "Invalid input"
      && |r.response.payload.details| > 0
    ensures hasSession && body.Parsed? && AcceptsProject(body.json, isUrl) && storeFails ==>
      r == Outcome(InternalError, store)
    ensures r.response.status == 201 <==>
      hasSession && body.Parsed? && AcceptsProject(body.json, isUrl) && !storeFails
    ensures r.response.status == 201 ==>
      && r.response.payload.ProjectEnvelope?
      && r.store == store + [r.response.payload.project]
      && r.response.payload.project.id == id
      && r.response.payload.project.createdAt == now
    ensures r.response.status != 201 ==> r.store == store
  {
    if !hasSession then Outcome(Unauthorized, store)
    else if body.Malformed? then Outcome(InternalError, store)
    else match ParseProject(body.json, isUrl)
      case Invalid(issues) =>
        Outcome(Response(400, ErrorDetails("Invalid input", issues)), store)
      case Valid(input) =>
        if storeFails then Outcome(InternalError, store)
        else
          var p := NewProject(input, id, now);
          Outcome(Response(201, ProjectEnvelope(p)), store + [p])
  }

  /** `GET /api/projects`: no session check; every stored project,
      featured first and then newest first, or 500 when the store fails. */
  function PublicList(store: seq<Project>, storeFails: bool): (r: Response)
    ensures storeFails ==> r == Response(500, ErrorMessage("Failed to fetch projects"))
    ensures !storeFails ==>
      && r.status == 200
      && r.payload.ProjectArray?
      && multiset(r.payload.projects) == multiset(store)
      && FeaturedFirst(r.payload.projects)
      && NewestFirstWithinGroup(r.payload.projects)
  {
    if storeFails then Response(500, ErrorMessage("Failed to fetch projects"))
    else
      var sorted := SortDescending(store, PublicKey);
      PublicOrderMeaning(sorted);
      Response(200, ProjectArray(sorted))
  }

  /** A created record carries the submitted fields: the three text fields,
      the image URL and the tags verbatim and in order, and a supplied
      non-empty link unchanged. */
  lemma CreateStoresInput(body: Json, store: seq<Project>, isUrl: string -> bool, id: string, now: int)
    requires AcceptsProject(body, isUrl)
    ensures
      var r := Create(true, Parsed(body), store, isUrl, id, now, false);
      var p := r.response.payload.project;
      var f := body.fields;
      && r.response.status == 201
      && JString(p.title) == f["title"] && JString(p.description) == f["description"]
      && JString(p.content) == f["content"] && JString(p.imageUrl) == f["imageUrl"]
      && f["tags"] == JArray(JsonStrings(p.tags))
      && (p.featured <==> "featured" in f && f["featured"] == JBool(true))
      && (p.demoUrl.None? <==> "demoUrl" !in f || f["demoUrl"] == JNull || f["demoUrl"] == JString(""))
      && (p.demoUrl.Some? ==> f["demoUrl"] == JString(p.demoUrl.value))
      && (p.githubUrl.None? <==> "githubUrl" !in f || f["githubUrl"] == JNull || f["githubUrl"] == JString(""))
      && (p.githubUrl.Some? ==> f["githubUrl"] == JString(p.githubUrl.value))
  {
    var input := ParseProject(body, isUrl).value;
  }

  /** Creating with a fresh id keeps ids unique. */
  lemma CreateKeepsIdsUnique(hasSession: bool, body: RequestBody, store: seq<Project>, isUrl: string -> bool,
                             id: string, now: int, storeFails: bool)
    requires UniqueIds(store)
    requires forall k :: 0 <= k < |store| ==> store[k].id != id
    ensures UniqueIds(Create(hasSession, body, store, isUrl, id, now, storeFails).store)
  {
    var r := Create(hasSession, body, store, isUrl, id, now, storeFails);
    if r.response.status == 201 {
      AppendFreshId(store, r.response.payload.project);
    }
  }

  lemma AppendFreshId(store: seq<Project>, p: Project)
    requires UniqueIds(store)
    requires forall k :: 0 <= k < |store| ==> store[k].id != p.id
    ensures UniqueIds(store + [p])
  {
    var s := store + [p];
    forall i, j | 0 <= i < j < |s| ensures s[i].id != s[j].id {
      if j == |store| {
        assert s[i] == store[i];
      } else {
        assert s[i] == store[i] && s[j] == store[j];
      }
    }
  }
  /** A rejected object body is answered with one issue for each key that
      breaks its rule and none for the others; a bad `imageUrl`, say, is
      reported under `imageUrl`. */
  lemma RejectionNamesFailingKeys(body: Json, store: seq<Project>, isUrl: string -> bool,
                                  id: string, now: int, storeFails: bool)
    requires body.JObject? && !AcceptsProject(body, isUrl)
    ensures
      var r := Create(true, Parsed(body), store, isUrl, id, now, storeFails);
      && r.response.payload.ErrorDetails?
      && forall k :: Issue(KeyName(k)) in r.response.payload.details <==> !ProjectFieldOk(body.fields, k, isUrl)
  {
    var parsed := ParseProject(body, isUrl);
    assert Create(true, Parsed(body), store, isUrl, id, now, storeFails).response
        == Response(400, ErrorDetails("Invalid input", parsed.issues));
  }

  /** A project created by `POST` shows up in the next admin listing, which
      then holds one project more than before. */
  lemma CreatedIsListed(body: Json, store: seq<Project>, isUrl: string -> bool, id: string, now: int)
    requires AcceptsProject(body, isUrl)
    ensures
      var r := Create(true, Parsed(body), store, isUrl, id, now, false);
      var listing := AdminList(true, r.store, false);
      && r.response.payload.ProjectEnvelope?
      && listing.payload.ProjectsEnvelope?
      && r.response.payload.project in listing.payload.projects
      && |listing.payload.projects| == |store| + 1
  {
    var r := Create(true, Parsed(body), store, isUrl, id, now, false);
    var p := r.response.payload.project;
    var listed := AdminList(true, r.store, false).payload.projects;
    assert multiset(listed) == multiset(store + [p]);
    assert p in multiset(store + [p]);
    assert |listed| == |multiset(listed)|;
  }
}

=== FILE: submission.dfy ===
/**
  The dashboard's submit meeting the create handler: the JSON body the form
  serialises, which forms the schema accepts, and what a created record
  holds.
 */
module Submission {
  import opened Wrappers
  import opened Json
  import opened Projects
  import opened ProjectApi
  import opened AdminDashboard

  /** `JSON.stringify` of a missing link: `null`. */
  function LinkJson(o: Option<string>): Json {
    match o
    case Some(s) => JString(s)
    case None => JNull
  }

  /** The body `handleSubmit` sends. */
  function RequestJson(d: ProjectData): (j: Json)
    ensures j.JObject?
  {
    JObject(map[
      "title" := JString(d.title),
      "description" := JString(d.description),
      "content" := JString(d.content),
      "imageUrl" := JString(d.imageUrl),
      "demoUrl" := LinkJson(d.demoUrl),
      "githubUrl" := LinkJson(d.githubUrl),
      "tags" := JArray(JsonStrings(d.tags)),
      "featured" := JBool(d.featured)])
  }

  /** What the server asks of a form: three non-empty text fields, an image
      URL, and each link either empty or a URL. */
  predicate FormValid(form: FormData, isUrl: string -> bool) {
    && form.title != "" && form.description != "" && form.content != ""
    && isUrl(form.imageUrl)
    && (form.demoUrl == "" || isUrl(form.demoUrl))
    && (form.githubUrl == "" || isUrl(form.githubUrl))
  }

  /** The keys of the body and what each holds. */
  predicate SendsFields(f: map<string, Json>, d: ProjectData) {
    && "title" in f && f["title"] == JString(d.title)
    && "description" in f && f["description"] == JString(d.description)
    && "content" in f && f["content"] == JString(d.content)
    && "imageUrl" in f && f["imageUrl"] == JString(d.imageUrl)
    && "demoUrl" in f && f["demoUrl"] == LinkJson(d.demoUrl)
    && "githubUrl" in f && f["githubUrl"] == LinkJson(d.githubUrl)
    && "tags" in f && f["tags"] == JArray(JsonStrings(d.tags))
    && "featured" in f && f["featured"] == JBool(d.featured)
  }

  lemma RequestJsonFields(d: ProjectData)
    ensures SendsFields(RequestJson(d).fields, d)
  {
  }

  /** What the server asks of the data sent: three non-empty text fields,
      an image URL, and each link missing or a URL. */
  predicate DataValid(d: ProjectData, isUrl: string -> bool) {
    && d.title != "" && d.description != "" && d.content != ""
    && isUrl(d.imageUrl)
    && (d.demoUrl.None? || isUrl(d.demoUrl.value))
    && (d.githubUrl.None? || isUrl(d.githubUrl.value))
  }

  lemma AcceptedFields(f: map<string, Json>, d: ProjectData, isUrl: string -> bool)
    requires SendsFields(f, d)
    ensures (forall k :: ProjectFieldOk(f, k, isUrl)) <==> DataValid(d, isUrl)
  {
    if DataValid(d, isUrl) {
      forall k ensures ProjectFieldOk(f, k, isUrl) {
        match k
        case Title =>
        case Description =>
        case Content =>
        case ImageUrl =>
        case DemoUrl =>
        case GithubUrl =>
        case Tags =>
        case Featured =>
      }
    } else if d.title == "" {
      assert !ProjectFieldOk(f, Title, isUrl);
    } else if d.description == "" {
      assert !ProjectFieldOk(f, Description, isUrl);
    } else if d.content == "" {
      assert !ProjectFieldOk(f, Content, isUrl);
    } else if !isUrl(d.imageUrl) {
      assert !ProjectFieldOk(f, ImageUrl, isUrl);
    } else if d.demoUrl.Some? && !isUrl(d.demoUrl.value) {
      assert !ProjectFieldOk(f, DemoUrl, isUrl);
    } else {
      assert !ProjectFieldOk(f, GithubUrl, isUrl);
    }
  }

  /** The schema accepts the body a form sends exactly when the form is
      valid; the tags never stand in the way. */
  lemma SubmittedFormAccepted(form: FormData, isUrl: string -> bool)
    ensures AcceptsProject(RequestJson(ToProjectData(form)), isUrl) <==> FormValid(form, isUrl)
  {
    var d := ToProjectData(form);
    RequestJsonFields(d);
    AcceptedFields(RequestJson(d).fields, d, isUrl);
  }

  /** A created record holds the data sent, when no link is sent as
      empty text. */
  lemma StoredAsSent(body: Json, d: ProjectData, store: seq<Project>, isUrl: string -> bool, id: string, now: int)
    requires body.JObject? && SendsFields(body.fields, d)
    requires DataValid(d, isUrl)
    requires d.demoUrl != Some("") && d.githubUrl != Some("")
    ensures
      var r := Create(true, Parsed(body), store, isUrl, id, now, false);
      && r.response.status == 201
      && r.response.payload.ProjectEnvelope?
      && var p := r.response.payload.project;
      && r.store == store + [p]
      && p.title == d.title && p.description == d.description
      && p.content == d.content && p.imageUrl == d.imageUrl
      && p.demoUrl == d.demoUrl && p.githubUrl == d.githubUrl
      && p.tags == d.tags && p.featured == d.featured
  {
    AcceptedFields(body.fields, d, isUrl);
    CreateStoresInput(body, store, isUrl, id, now);
    var p := Create(true, Parsed(body), store, isUrl, id, now, false).response.payload.project;
    assert JsonStrings(p.tags) == JsonStrings(d.tags);
    StringsOfJsonStrings(p.tags);
    StringsOfJsonStrings(d.tags);
  }

  /** End to end: a valid form submitted from the dashboard creates a
      record whose tags are the parsed tag text, whose links are the
      non-empty link fields, and whose other fields are the form's. */
  lemma FormSubmissionCreates(form: FormData, store: seq<Project>, isUrl: string -> bool, id: string, now: int)
    requires FormValid(form, isUrl)
    ensures
      var r := Create(true, Parsed(RequestJson(ToProjectData(form))), store, isUrl, id, now, false);
      && r.response.status == 201
      && r.response.payload.ProjectEnvelope?
      && var p := r.response.payload.project;
      && r.store == store + [p]
      && p.title == form.title && p.description == form.description
      && p.content == form.content && p.imageUrl == form.imageUrl
      && p.demoUrl == UrlOrNull(form.demoUrl) && p.githubUrl == UrlOrNull(form.githubUrl)
      && p.tags == ParseTags(form.tags) && WellFormedTags(p.tags)
      && p.featured == form.featured
  {
    var d := ToProjectData(form);
    assert DataValid(d, isUrl);
    var body := RequestJson(d);
    RequestJsonFields(d);
    StoredAsSent(body, d, store, isUrl, id, now);
  }
}

=== FILE: wrappers.dfy ===
/**
  An optional value, for fields a request may leave out and settings the
  environment may not provide.
 */
module Wrappers {

  datatype Option<+T> = None | Some(value: T) {
    function GetOr(default: T): T {
      match this
      case Some(v) => v
      case None => default
    }
  }
}
